=== FILE: README.md ===
# netflix-clone back end, modelled in Dafny

This project models the logic of the netflix-clone API server in four parts.

- **The catalogue store** (`FirebaseDB` in `app/utils/firebase.py`). It keeps a
  realtime database holding `users`, the `user_emails` index, `content`, and the
  secondary indexes `content_by_type` and `content_by_genre`.
  - The database is an immutable `Db` value.
  - Each node of child keys (an index node, the `content` node, a `my_list`
    key node) is an ordered list of distinct keys.
  - The backend's null rule is part of the model. Writing Python `None`
    (the value `Null`), an empty list or an empty object stores nothing, so
    an update that gives a field `None` deletes it, and a node left empty
    disappears.
  - The central invariant is `Consistent`: an id is filed under a type or a
    genre exactly when its record has that type or lists that genre.
- **The "my list" routes** (`app/routes/user.py`). They treat `my_list` as an
  ordered list field of the user record, which is not the key node the store's
  own `add_to_user_list` writes. The two are modelled separately.
- **The catalogue query** of `GET /api/content/` (`app/routes/content.py`):
  parameter bounds, the filter built from the optional parameters, and the
  skip/limit window.
- **Registration and login** (`app/routes/auth.py`) over a collection of user
  documents.
  - bcrypt is a `Hasher` value passed in, and so is the address
    normalisation pydantic's `EmailStr` applies to the registration body. Its one assumed law, "a password
    checks against any hash made from it", is the hypothesis `Sound(h)` of the
    lemma that needs it.
  - A token is the pair of its claims: the user id and the expiry, one day
    after issue.

Every operation is a pure function. A route returns a `Result` holding either
the new state or an HTTP status. The signed-in user's id, fresh ids, salts and
timestamps are all parameters.

Files:
- `common.dfy`: Option, Result, and the HTTP statuses.
- `keys.dfy`: ordered key lists.
- `python.dfy`: the Python built-ins the code leans on — `str.lower`, slicing,
  `list.remove`, `in` on strings.
- `values.dfy`: database values and the `update()` merge.
- `firebase.dfy`: the store.
- `catalogue.dfy`: lemmas about the store.
- `my_list_routes.dfy`, `content_query.dfy`, `auth_routes.dfy`: the routes.

## Model

| member | source | states |
|---|---|---|
| Values.Merge | app/utils/firebase.py:152-154 | a non-null value in the update overwrites its field; a null one deletes it; every field not named in the update keeps its value |
| Values.Stored | app/utils/firebase.py:103 | what `set` leaves stored: exactly the fields whose value is not `None`, an empty list or an empty object, each with its value |
| Python.Slice | app/utils/firebase.py:244 | Python slice semantics: for bounds inside the list it is the plain subsequence; it is never longer than `j - i` or the list; reversed bounds give []; every element comes from the list |
| Python.SliceSplit | app/utils/firebase.py:244 | for a start `i >= 0`, the slices of lengths `a` and `b` that meet concatenate to the slice of length `a + b`, also when they run past the end |
| Python.RemoveFirst | app/routes/user.py:166 | `list.remove` drops exactly the first occurrence and keeps the order of the rest |
| Python.Contains | app/routes/user.py:114 | `a in b` on two strings: `a` occurs as a contiguous piece of `b` at some position |
| Python.RemoveFirstAppended | app/routes/user.py:166 | removing an element appended to a list that lacked it gives the list back |
| Python.Lower | app/utils/firebase.py:106 | lower-casing keeps the length, leaves no upper-case letter, and fixes lower-case text |
| Keys.Insert | app/utils/firebase.py:180-184 | setting a child key adds exactly that key, keeps keys distinct, and is a no-op for a present key |
| Keys.Remove | app/utils/firebase.py:305-312 | deleting a child key removes exactly that key, keeps keys distinct, and is a no-op for an absent key |
| Keys.RemoveAt | app/utils/firebase.py:305-312 | in a distinct key list, deleting the key at position `i` leaves the keys before it and after it in their order |
| FirebaseDB.IndexSet | app/utils/firebase.py:180 | `child(key).child(id).set(True)` adds exactly the entry (key, id) and keeps index nodes well formed |
| FirebaseDB.IndexDelete | app/utils/firebase.py:307 | `child(key).child(id).delete()` removes exactly the entry (key, id), drops a node left empty, and keeps index nodes well formed |
| FirebaseDB.IndexSetAll | app/utils/firebase.py:183-184 | filing an id under each genre adds exactly those (genre, id) entries and keeps index nodes well formed |
| FirebaseDB.IndexDeleteAll | app/utils/firebase.py:309-312 | unfiling an id from each genre removes exactly those entries and drops nodes left empty |
| FirebaseDB.CreateUser | app/utils/firebase.py:88-111 | stores the record with `id`, `created_at` and `updated_at` under the fresh id and leaves other users alone; every spelling of the email that lower-cases alike then finds that user; no other email key changes |
| FirebaseDB.GetUserByEmail | app/utils/firebase.py:114-131 | None when the lower-cased email has no index entry or no record behind it; otherwise exactly the record of the user filed under the lower-cased email |
| FirebaseDB.GetUserById | app/utils/firebase.py:134-145 | the record exactly when one exists and is non-empty |
| FirebaseDB.UpdateUser | app/utils/firebase.py:148-158 | a merge into the user record: fields given overwrite, nulls delete, `updated_at` is stamped, every other field and every other user is unchanged |
| FirebaseDB.GetContentById | app/utils/firebase.py:192-203 | the content record exactly when one exists and is non-empty |
| FirebaseDB.FileType | app/utils/firebase.py:179-180 | the id is filed under the record's type when it has one, and no other entry changes |
| FirebaseDB.UnfileType | app/utils/firebase.py:306-307 | the id is unfiled from the record's type when the record exists and has one, and no other entry changes |
| FirebaseDB.FileGenres | app/utils/firebase.py:182-184 | the id is filed under each genre when `genre` is a list, and no other entry changes |
| FirebaseDB.UnfileGenres | app/utils/firebase.py:310-312 | the id is unfiled from each genre when the record exists and its `genre` is a list, and no other entry changes |
| FirebaseDB.CreateContent | app/utils/firebase.py:161-189 | stores the record under the fresh id; the type index gains (type, id) only when `type` is present, the genre index gains (g, id) for each g only when `genre` is a list; no other index entry changes |
| FirebaseDB.DeleteContent | app/utils/firebase.py:294-317 | removes the record and its key, and every other content key stays listed; unfiles the id from exactly the type and genres the record had before deletion; no other record, index entry, user or email key changes |
| FirebaseDB.Updated | app/utils/firebase.py:263-264 | the merged content record: the type and genres afterwards are those of the update when it names them, else the old ones |
| FirebaseDB.UpdateContent | app/utils/firebase.py:258-291 | as written: merges the update; when `type` is given, the id is afterwards under every type it was under before plus the new one; likewise for genres; other ids' entries are unchanged |
| FirebaseDB.TypeIndexAfterUpdate | app/utils/firebase.py:266-274 | as intended: when the update names a type, the id is afterwards under type `t` exactly when `t` is the new type or it was filed under `t` without its old record having that type; without a type the index is unchanged; other ids are untouched; well-formed nodes stay well formed |
| FirebaseDB.GenreIndexAfterUpdate | app/utils/firebase.py:276-286 | as intended: when the update names genres, the id is afterwards under genre `g` exactly when `g` is a new genre or it was filed under `g` without its old record listing it; without genres the index is unchanged; other ids are untouched; well-formed nodes stay well formed |
| FirebaseDB.UpdateContentFixed | app/utils/firebase.py:258-291 | as intended: when `type` is given, the id's entry under its old type is dropped and it is filed under the new one; likewise for genres |
| FirebaseDB.Records | app/utils/firebase.py:247-250 | never more records than ids; every result is the record of a listed id; when every id has a record the result is exactly those records, in id order |
| FirebaseDB.RecordsPositions | app/utils/firebase.py:247-250 | a record is fetched exactly when it is the record of an id at some position of the list that has a record |
| FirebaseDB.RecordsAppend | app/utils/firebase.py:247-250 | fetching records distributes over concatenated id lists |
| FirebaseDB.SelectedIds | app/utils/firebase.py:218-238 | a non-empty type filter selects the keys of the node under that type; else a non-empty genre filter the keys under that genre; else all content ids; a missing or empty node gives nothing; on a well-formed store no id is selected twice |
| FirebaseDB.Page | app/utils/firebase.py:244-250 | the page holds at most `limit` records and no more than the ids, each the record of a listed id |
| FirebaseDB.PageWindow | app/utils/firebase.py:244-250 | for non-negative offset and limit, every record on the page is that of an id at a position in `[offset, offset + limit)` with a record, every such id's record is on the page, and when all of them have records the page lists them in position order |
| FirebaseDB.WindowPositions | app/utils/firebase.py:244 | the slice `ids[offset:offset + limit]` holds exactly the ids at positions in `[offset, offset + limit)` that exist, in order |
| FirebaseDB.GetContentList | app/utils/firebase.py:206-255 | `([], 0)` for a missing or empty selection; otherwise total is the number of selected ids, and for non-negative offset and limit the page holds the record of each selected id at a position in `[offset, offset + limit)` that has one, and no other record |
| FirebaseDB.AddToUserList | app/utils/firebase.py:320-329 | the listed keys afterwards are the old ones plus the content id; no other field or user changes |
| FirebaseDB.RemoveFromUserList | app/utils/firebase.py:332-341 | the listed keys afterwards are the old ones minus the content id; no other field or user changes |
| FirebaseDB.GetUserList | app/utils/firebase.py:344-364 | for a key-node `my_list`, the records of the listed ids that exist, in key order; every record returned is the record of a listed id |
| Catalogue.CreateContentKeepsConsistency | app/utils/firebase.py:176-184 | creating content keeps the indexes in agreement with the records |
| Catalogue.CreateContentKeepsWellFormed | app/utils/firebase.py:176-184 | creating content keeps keys distinct, the key list equal to the stored ids, and index nodes non-empty |
| Catalogue.DeleteContentUnfilesId | app/utils/firebase.py:300-312 | on consistent indexes, deletion keeps them consistent and no index entry refers to the deleted id |
| Catalogue.DeleteContentNeedsConsistency | app/utils/firebase.py:306-307 | without consistency beforehand, an entry under a type the record lacks survives the delete |
| Catalogue.DeleteContentKeepsWellFormed | app/utils/firebase.py:300-312 | deletion keeps the structural facts of the database |
| Catalogue.UpdateContentLeavesStaleType | app/utils/firebase.py:264-274 | re-typing a consistent record leaves it filed under its old type, so the indexes are no longer consistent |
| Catalogue.UpdateContentStaleExample | app/utils/firebase.py:264-274 | a movie re-typed as a series is listed under both "movie" and "series" |
| Catalogue.UpdateContentFixedKeepsConsistency | app/utils/firebase.py:258-291 | the corrected update keeps consistent indexes consistent |
| Catalogue.UpdateContentKeepsWellFormed | app/utils/firebase.py:258-291 | the update as written keeps keys distinct, the key list equal to the stored ids, and index nodes non-empty; its defect is which entries stay filed, not their shape |
| Catalogue.UpdateContentFixedKeepsWellFormed | app/utils/firebase.py:258-291 | the corrected update keeps the same structural facts |
| Catalogue.TypeFilterTakesPrecedence | app/utils/firebase.py:218-231 | with a non-empty type filter the genre argument does not affect the listing |
| Catalogue.ListedByTypeHaveType | app/utils/firebase.py:218-222 | on consistent indexes every record listed for a type has that type |
| Catalogue.ListedByGenreHaveGenre | app/utils/firebase.py:225-229 | on consistent indexes every record listed for a genre lists that genre |
| Catalogue.ConsecutivePagesAdjacent | app/utils/firebase.py:241-250 | pages at `offset` and `offset + limit` concatenate to the page of twice the size, with the same total |
| Catalogue.PagesAdjacent | app/utils/firebase.py:244-250 | the same adjacency for the page of a fixed id list |
| Catalogue.PagesSplit | app/utils/firebase.py:244-250 | a page of `l1` records followed by the page of `l2` starting where it ends is the page of `l1 + l2` |
| Catalogue.RecordsSplit | app/utils/firebase.py:244-250 | the records of two adjacent slices are the records of the slice spanning both |
| Catalogue.DistinctCard | app/utils/firebase.py:241 | a list of distinct keys has as many elements as its set of keys |
| Catalogue.UnfilteredTotal | app/utils/firebase.py:232-241 | without filters the total is the number of stored content records |
| Catalogue.UnfilteredFullPage | app/utils/firebase.py:232-252 | the first unfiltered page with a limit covering the catalogue is every record in key order |
| Catalogue.UnfilteredPageIsAll | app/utils/firebase.py:232-250 | on a well-formed store the first unfiltered page with a covering limit is every record, one per content key |
| Catalogue.FirstPageIsAll | app/utils/firebase.py:244-250 | a first page whose limit covers a list of ids that all have records fetches every one of them |
| Catalogue.AddToUserListIdempotent | app/utils/firebase.py:325 | adding the same content id twice is adding it once |
| Catalogue.RemoveFromUserListIdempotent | app/utils/firebase.py:337 | removing the same content id twice is removing it once |
| Catalogue.RecordsInclude | app/utils/firebase.py:356-359 | the record of every listed id that exists is among the records fetched |
| Catalogue.AddedContentIsListed | app/utils/firebase.py:349-360 | after adding an existing content id, the user's list holds its record |
| Catalogue.EmailLookupIgnoresCase | app/utils/firebase.py:120 | two emails that lower-case alike find the same user |
| MyListRoutes.ReadList | app/routes/user.py:111 | a missing `my_list` reads as []; a list reads as its items; anything else is not a list |
| MyListRoutes.Membership | app/routes/user.py:114 | Python `in` on a `my_list` of any kind: element membership for a list, key membership for a key node, substring for a string; it raises only on `None` or another scalar |
| MyListRoutes.AppendNew | app/routes/user.py:114-121 | 400 exactly when the id is listed; otherwise the old list followed by the id; no duplicates are introduced |
| MyListRoutes.RemoveListed | app/routes/user.py:159-166 | 400 exactly when the id is not listed; otherwise one shorter, the first occurrence removed, the rest in order; with no duplicates the id is gone |
| MyListRoutes.AppendThenRemove | app/routes/user.py:159-167 | appending a fresh id and removing it restores the list |
| MyListRoutes.WriteList | app/routes/user.py:122 | after writing the list back the user reads exactly that list and no field but `my_list` and `updated_at` changes |
| MyListRoutes.AddToMyList | app/routes/user.py:85-136 | 404 when the content is missing, before the user is read; 500 for a missing user; for a list, 400 exactly when the id is already in it; for any other `my_list`, 400 when `in` answers true and otherwise 500; on success the list read back is the old list with the id appended and no other field or user changes |
| MyListRoutes.RemoveFromMyList | app/routes/user.py:138-181 | 500 for a missing user; for a list, 400 exactly when the id is absent; for any other `my_list`, 400 when `in` answers false and otherwise 500; on success the list read back is the old list with its first occurrence removed and no other field or user changes |
| MyListRoutes.GetMyList | app/routes/user.py:183-210 | the user's list, [] when missing, and 500 when there is no user or `my_list` is not a list |
| MyListRoutes.AddThenRemoveRestores | app/routes/user.py:110-167 | adding a fresh id and removing it gives back the same `GET /my-list` answer, with every other field unchanged |
| MyListRoutes.AddKeepsListDistinct | app/routes/user.py:114-121 | a successful add keeps "no id twice in my_list" |
| ContentQuery.Keep | app/routes/content.py:25-33 | a filter enters the query exactly when its parameter is truthy |
| ContentQuery.BuildQuery | app/routes/content.py:23-33 | the query holds a genre, type or search condition exactly when that parameter is truthy, and then holds the parameter itself |
| ContentQuery.Selects | app/routes/content.py:25-33 | a document satisfies the query when its genre array contains the genre, its type equals the type, and the search matches its title or description, for each condition present |
| ContentQuery.Find | app/routes/content.py:35-36 | a document is found exactly when it is in the collection and satisfies the query |
| ContentQuery.FindAppend | app/routes/content.py:35-36 | the result keeps collection order |
| ContentQuery.NoFilterSelectsAll | app/routes/content.py:24-36 | with no filter given, every document is found, in order |
| ContentQuery.SelectsIff | app/routes/content.py:25-33 | a document is selected exactly when the genre is in its genre array, the type is equal, and the search matches title or description, for each filter given |
| ContentQuery.Skip | app/routes/content.py:22 | the skip is non-negative and page `p` ends where page `p + 1` starts |
| ContentQuery.Window | app/routes/content.py:35-37 | at most `limit` documents, the run that starts at the skip, [] beyond the end |
| ContentQuery.GetContent | app/routes/content.py:13-43 | 422 exactly when `page < 1` or `limit` is outside 1..100; otherwise every failure is a 500, and the answer fails exactly when a truthy search is a pattern the server refuses, the skip exceeds a 64-bit integer, or a fetched document's type is neither "movie" nor "series" (the `Content` response model); a success is at most `limit` documents, each from the collection, of an allowed type and matching every filter given |
| ContentQuery.GetContentRequest | app/routes/content.py:13-43 | an omitted `page` or `limit` takes its default (1 and 10) and never causes a 422; every other failure is a 500; with both omitted, the answer succeeds exactly when the search is accepted and each of the first 10 matches has an allowed type, and it is then those 10 matches |
| ContentQuery.ConsecutivePages | app/routes/content.py:22-37 | on a collection whose documents all have an allowed type, with an accepted search and a skip for page `p + 1` that fits, pages `p` and `p + 1` both succeed and together are the `2 * limit` matches from page `p`'s start |
| ContentQuery.NonConformingIsServerError | app/routes/content.py:13 | an unfiltered page 1 whose first document has a type outside the `ContentType` enum is a 500 |
| ContentQuery.HugeSkipIsServerError | app/routes/content.py:22-43 | a page whose skip exceeds a 64-bit integer is a 500 for every collection |
| ContentQuery.WindowsAdjacent | app/routes/content.py:35-37 | two windows of `limit` starting `limit` apart concatenate to one window of `2 * limit` |
| ContentQuery.PageIsComplete | app/routes/content.py:22-37 | on a collection whose documents all have an allowed type, with an accepted search and a skip that fits, every match whose position lies in page `p`'s window is on page `p` |
| AuthRoutes.CreateToken | app/utils/auth.py:9-12 | the token names the user and expires one day (86400 s) after issue |
| AuthRoutes.FindByEmail | app/routes/auth.py:32 | a document exactly when some document has that exact email; it is the first such in the collection order the model fixes |
| AuthRoutes.FindByEmailAppend | app/routes/auth.py:15 | a document appended at the end is found only when no earlier one has the email |
| AuthRoutes.Register | app/routes/auth.py:12-28 | 400 exactly when some document has the normalised email; otherwise exactly one document is appended, holding the normalised email and the hash of the password, and the token is for the new id |
| AuthRoutes.Login | app/routes/auth.py:30-40 | a token exactly when a document has the email as given and the password checks against the first such document's hash; the token is for that same document's id; every failure is the same 401 |
| AuthRoutes.RegisterKeepsEmailsUnique | app/routes/auth.py:15-23 | registration keeps emails unique in the collection |
| AuthRoutes.SecondRegisterFails | app/routes/auth.py:15-16 | registering again with an email that normalises to the same address is refused with 400 |
| AuthRoutes.RegisterThenLogin | app/routes/auth.py:19-39 | with a sound hash, logging in right after registering with the normalised email and the same password gives a token for the new id; so does the email as typed when it was already normal |
| AuthRoutes.RegisterThenRawLoginFails | app/routes/auth.py:15-37 | when normalisation changes the address, logging in with it as typed answers 401 unless an older document holds that exact address |

## Left out

- Firebase initialisation, environment reading and the Mongo client setup are I/O plumbing. The `FirebaseAuth` wrapper class and the JWT signing and decoding in `app/utils/auth.py` are thin calls into libraries; a token is modelled as its claims.
- bcrypt internals are not modelled. `hash` and `check` are parameters, and only the law `Sound` is assumed, as a lemma hypothesis.
- The uuid and ObjectId generators and `utcnow()` are not modelled. A fresh id, a salt and a timestamp are parameters. The store's `create_user` and `create_content` require their fresh id to be unused; the id of a registered document is left unconstrained.
- The signed-in user is passed as an id. In the source, `get_current_user` returns the id string itself, and the routes read `current_user.id` from it, which would raise. The `HTTPBearer` dependency and `get_current_user` (app/utils/auth.py:7 and 14-23) run before every protected route's own checks: a request without a bearer token is answered 403 and one with a token that does not decode is answered 401. Every route model here, including the 422 of ContentQuery.GetContent and the 404 of MyListRoutes.AddToMyList, describes a request that has passed that check.
- The settings attributes the code reads (`settings.JWT_SECRET`, `settings.MONGODB_URL`) are not defined by either settings module. These are configuration errors, not logic, and are not modelled.
- The profile routes (`GET` and `PUT /profile`) and `GET /api/content/{content_id}` are not modelled. They are thin wrappers around `get_user_by_id`, `update_user` and `find_one`. In the last of them, the 404 is caught by the generic handler and answered as 500.
- The recommendation service uses numpy and sklearn on floats and has unimplemented stubs; it is not part of this model.
- Concurrency is not modelled. The read-modify-write in the my-list routes is modelled as one sequential step.
- Firebase key validity is not modelled: keys containing `. $ # [ ] /`, or empty keys, are rejected by the backend. In particular, an email with a `.` would make the `user_emails` write in `create_user` fail; here the write succeeds.
- The order in which the backend returns child keys is modelled as insertion order. Firebase uses its own key ordering, so a real page may list the same ids in a different order.
- ContentQuery.ConsecutivePages: `db.content.find(query)` has no sort, so MongoDB promises no order. The collection is modelled as a sequence whose order is the same on every request; the same assumption underlies ContentQuery.PageIsComplete.
- AuthRoutes.FindByEmail: `find_one` without a sort (app/routes/auth.py:15 and 32) promises no particular document when several share an email. The model takes the first in collection order. Registration keeps emails unique (AuthRoutes.RegisterKeepsEmailsUnique), so on collections built by `register` there is at most one.
- Values are strings, string lists, key nodes, `None` and other scalars. Numbers, booleans as data and nested objects other than key nodes are collapsed into `Other`. The float `rating` is left out.
- Python.Lower: lower-cases ASCII letters only; `str.lower` also folds non-ASCII letters.
- ContentQuery.Selects: the MongoDB `$regex` with option `i` is an abstract `matches` predicate, not regular-expression semantics. Whether the server compiles a search pattern is the parameter `valid` of ContentQuery.GetContent; which patterns it refuses is not modelled.
- AuthRoutes.Register: what `EmailStr` normalisation does is a parameter, and its rejection of malformed addresses (422) is not modelled. The `created_at` default is not modelled either. The source evaluates that default once, at import time, so every user gets the same value; here the field is absent.
- AuthRoutes.RegisterThenLogin: it promises a successful login only with the normalised address. Login compares the address exactly as given, so a user who types an address that normalisation changes is refused (AuthRoutes.RegisterThenRawLoginFails).
- FirebaseDB.CreateUser: requires a string `email`. For any other value the source stores the user first (app/utils/firebase.py:103), then raises at `.lower()` (app/utils/firebase.py:106), leaving a user with no index entry. That partial write is not modelled.
- FirebaseDB.CreateContent: requires `type`, when present, to be a string. For any other value the source writes the record (app/utils/firebase.py:176), then raises when it uses the type as a child key (app/utils/firebase.py:180). That partial write is not modelled.
- FirebaseDB.DeleteContent: requires a stored `type`, when present, to be a string. Such a record can be left by the partial writes of `create_content` and `update_content` described here. For it the source deletes the record (app/utils/firebase.py:303), then raises when it uses the type as a child key (app/utils/firebase.py:307). The genre entries (app/utils/firebase.py:310-312) are then never removed. That partial delete is not modelled, and the same requires is on Catalogue.DeleteContentUnfilesId.
- FirebaseDB.UpdateContent: requires a given `type` in the update to be a string. For any other value the source merges the record (app/utils/firebase.py:264) before the index write raises (app/utils/firebase.py:274). That partial write is not modelled. As written, the stored record's type is never used as a key, because the "old" record is read after the merge (app/utils/firebase.py:269-271). FirebaseDB.UpdateContentFixed and FirebaseDB.TypeIndexAfterUpdate read the record before the write, and they additionally require the stored `type`, when present, to be a string.
- FirebaseDB.AddToUserList: requires `my_list` to be missing or a key node. When `my_list` is a list, as the my-list routes write it, the backend turns it into an object with keys "0", "1", … and adds the content id beside them. That case is not modelled.
- FirebaseDB.RemoveFromUserList: requires `my_list` to be missing or a key node, for the same reason. Deleting the id from a list-valued `my_list` is not modelled.
- An exception raised by the store inside a route is answered as 500 in the source. Backend failures (network, permissions) are not modelled. Of the store exceptions that come from the data itself, the ones listed above are excluded by a `requires`. In the routes, the 500s are modelled that come from the route logic and from a search pattern the server refuses.
- FirebaseDB.GetContentList: the default arguments `limit=20` and `offset=0` (app/utils/firebase.py:209-210) are not modelled; both are explicit parameters. No code in the repository calls `get_content_list`, so no caller relies on them.
- FirebaseDB.WithMetadata: one timestamp stands for both `created_at` and `updated_at`. `create_user` and `create_content` call `utcnow()` twice (app/utils/firebase.py:99-100 and 172-173), so the two stamps can differ by the time between the calls.
- Rate limiting, failed-login lockout, refresh tokens and token kinds are not part of this code.

## Findings

| source | as written | input that shows it | evidently intended | confidence | as-written member | corrected member |
|---|---|---|---|---|---|---|
| app/utils/firebase.py:264-286 | the update is written at line 264 before the "old" type and genres are read back at lines 269 and 278, so the entries removed are the new ones, which are re-added at once | content `c` with type `movie`, filed under `content_by_type/movie`; `update_content("c", {"type": "series"})` leaves `c` under both `movie` and `series` | read the old record before the write, unfile its type and genres, then file the new ones | not executed | Catalogue.UpdateContentLeavesStaleType | Catalogue.UpdateContentFixedKeepsConsistency |

=== FILE: auth_routes.dfy ===
/** Registration and login (app/routes/auth.py) over the `users` document
    collection, with the bearer token of `create_token`. The password hash
    is a parameter: `hash(password, salt)` stands for bcrypt's `hashpw` with a
    fresh `gensalt()`, and `check(password, stored)` for `checkpw`. So is the
    address normalisation pydantic's `EmailStr` applies to the registration
    body: `normalize(email)`. Login takes the
    address as a plain string and does not normalise it. */
module AuthRoutes {
  import opened Common

  /** `timedelta(days=1)`, in seconds. */
  const TokenLifetime := 86400

  /** A stored user document: the submitted `User` with its password replaced
      by the hash, plus the id the collection assigned. */
  datatype UserDoc = UserDoc(id: string, email: string, password: string, profileName: string, myList: seq<string>)

  /** The `User` body of a registration request. */
  datatype NewUser = NewUser(email: string, password: string, profileName: string, myList: seq<string>)

  datatype Hasher = Hasher(hash: (string, string) -> string, check: (string, string) -> bool)

  /** What bcrypt guarantees: a password checks against any hash made from it. */
  ghost predicate Sound(h: Hasher) {
    forall pw, salt :: h.check(pw, h.hash(pw, salt))
  }

  /** The claims of the signed token: the user id and the expiry instant. */
  datatype Token = Token(userId: string, expiresAt: int)

  function CreateToken(userId: string, now: int): (t: Token)
    ensures t.userId == userId
    ensures t.expiresAt - now == TokenLifetime
  {
    Token(userId, now + TokenLifetime)
  }

  predicate EmailTaken(users: seq<UserDoc>, email: string) {
    exists i :: 0 <= i < |users| && users[i].email == email
  }

  /** `find_one({"email": email})`: the first document, in collection order,
      whose email equals the given one exactly. */
  function FindByEmail(users: seq<UserDoc>, email: string): (r: Option<UserDoc>)
    ensures r.Some? <==> EmailTaken(users, email)
    ensures r.Some? ==> exists i :: 0 <= i < |users| && users[i] == r.value && r.value.email == email &&
                                    forall j :: 0 <= j < i ==> users[j].email != email
  {
    if users == [] then None
    else if users[0].email == email then Some(users[0])
    else
      var rest := FindByEmail(users[1..], email);
      assert EmailTaken(users, email) <==> EmailTaken(users[1..], email) by {
        if EmailTaken(users, email) {
          var i :| 0 <= i < |users| && users[i].email == email;
          assert users[1..][i - 1].email == email;
        }
        if EmailTaken(users[1..], email) {
          var i :| 0 <= i < |users[1..]| && users[1..][i].email == email;
          assert users[i + 1].email == email;
        }
      }
      if rest.Some? then
        var i :| 0 <= i < |users[1..]| && users[1..][i] == rest.value && rest.value.email == email &&
                 forall j :: 0 <= j < i ==> users[1..][j].email != email;
        assert users[i + 1] == rest.value;
        assert forall j :: 0 <= j < i + 1 ==> users[j].email != email by {
          forall j | 0 <= j < i + 1 ensures users[j].email != email {
            if j > 0 { assert users[j] == users[1..][j - 1]; }
          }
        }
        rest
      else rest
  }

  /** A lookup in a collection with one more document at the end only
      reaches it when no earlier document has the email. */
  lemma {:induction false} FindByEmailAppend(users: seq<UserDoc>, d: UserDoc, email: string)
    ensures FindByEmail(users + [d], email) ==
            if FindByEmail(users, email).Some? then FindByEmail(users, email)
            else if d.email == email then Some(d) else None
  {
    if users == [] {
      assert [] + [d] == [d];
    } else {
      assert (users + [d])[1..] == users[1..] + [d];
      FindByEmailAppend(users[1..], d, email);
    }
  }

  /** `POST /register`: the body's email is normalised; 400 when some
      document already has the normalised email; otherwise the user is
      stored with that email and the hashed password, and a token for the new
      id is returned. `freshId` is the id the collection assigns. */
  function Register(users: seq<UserDoc>, u: NewUser, freshId: string, salt: string, now: int, h: Hasher,
                    normalize: string -> string)
    : (r: Result<(seq<UserDoc>, Token), Status>)
    ensures r.Err? <==> EmailTaken(users, normalize(u.email))
    ensures r.Err? ==> r.error == BadRequest && r.error.Code() == 400
    ensures r.Ok? ==> |r.value.0| == |users| + 1 && r.value.0[..|users|] == users
    ensures r.Ok? ==> var d := r.value.0[|users|];
                      d.id == freshId && d.email == normalize(u.email) && d.password == h.hash(u.password, salt) &&
                      d.profileName == u.profileName && d.myList == u.myList
    ensures r.Ok? ==> r.value.1.userId == freshId && r.value.1.expiresAt == now + TokenLifetime
  {
    var email := normalize(u.email);
    if FindByEmail(users, email).Some? then Err(BadRequest)
    else
      var doc := UserDoc(freshId, email, h.hash(u.password, salt), u.profileName, u.myList);
      var users' := users + [doc];
      assert users'[..|users|] == users;
      Ok((users', CreateToken(freshId, now)))
  }

  /** `POST /login`: a token for the first document with the email when the
      password checks against its stored hash; 401 otherwise, with the same
      answer whether the email is unknown or the password wrong. */
  function Login(users: seq<UserDoc>, email: string, password: string, now: int, h: Hasher)
    : (r: Result<Token, Status>)
    ensures r.Ok? <==> FindByEmail(users, email).Some? && h.check(password, FindByEmail(users, email).value.password)
    ensures r.Ok? ==> r.value == CreateToken(FindByEmail(users, email).value.id, now)
    ensures r.Ok? ==> exists i :: 0 <= i < |users| && users[i].email == email && r.value.userId == users[i].id
    ensures r.Ok? ==> r.value.expiresAt == now + TokenLifetime
    ensures r.Err? ==> r.error == Unauthorized && r.error.Code() == 401
  {
    match FindByEmail(users, email)
    case None => Err(Unauthorized)
    case Some(user) =>
      if !h.check(password, user.password) then Err(Unauthorized)
      else Ok(CreateToken(user.id, now))
  }

  /** No two documents share an email. */
  ghost predicate UniqueEmails(users: seq<UserDoc>) {
    forall i, j :: 0 <= i < j < |users| ==> users[i].email != users[j].email
  }

  /** Registration keeps emails unique. */
  lemma RegisterKeepsEmailsUnique(users: seq<UserDoc>, u: NewUser, freshId: string, salt: string, now: int, h: Hasher,
                                  normalize: string -> string)
    requires UniqueEmails(users)
    requires Register(users, u, freshId, salt, now, h, normalize).Ok?
    ensures UniqueEmails(Register(users, u, freshId, salt, now, h, normalize).value.0)
  {
    var users' := Register(users, u, freshId, salt, now, h, normalize).value.0;
    forall i, j | 0 <= i < j < |users'| ensures users'[i].email != users'[j].email {
      if j == |users| {
        assert users'[i] == users[i];
      } else {
        assert users'[i] == users[i] && users'[j] == users[j];
      }
    }
  }

  /** A second registration whose email normalises to the same address is refused. */
  lemma SecondRegisterFails(users: seq<UserDoc>, u: NewUser, id1: string, id2: string,
                            s1: string, s2: string, t1: int, t2: int, h: Hasher, v: NewUser,
                            normalize: string -> string)
    requires Register(users, u, id1, s1, t1, h, normalize).Ok?
    requires normalize(v.email) == normalize(u.email)
    ensures Register(Register(users, u, id1, s1, t1, h, normalize).value.0, v, id2, s2, t2, h, normalize) == Err(BadRequest)
  {
    var users' := Register(users, u, id1, s1, t1, h, normalize).value.0;
    assert users'[|users|].email == normalize(v.email);
  }

  /** With a sound hash, a freshly registered user can log in with the
      normalised address and the password they registered, and the token
      names their new id; when the address was already in normal form, that
      is the address they typed. */
  lemma RegisterThenLogin(users: seq<UserDoc>, u: NewUser, freshId: string, salt: string,
                          t1: int, t2: int, h: Hasher, normalize: string -> string)
    requires Sound(h)
    requires !EmailTaken(users, normalize(u.email))
    ensures Register(users, u, freshId, salt, t1, h, normalize).Ok?
    ensures Login(Register(users, u, freshId, salt, t1, h, normalize).value.0, normalize(u.email), u.password, t2, h)
            == Ok(Token(freshId, t2 + TokenLifetime))
    ensures normalize(u.email) == u.email ==>
              Login(Register(users, u, freshId, salt, t1, h, normalize).value.0, u.email, u.password, t2, h)
              == Ok(Token(freshId, t2 + TokenLifetime))
  {
    var users' := Register(users, u, freshId, salt, t1, h, normalize).value.0;
    var d := users'[|users|];
    assert users' == users + [d];
    FindByEmailAppend(users, d, normalize(u.email));
    assert FindByEmail(users', normalize(u.email)) == Some(d);
    assert h.check(u.password, h.hash(u.password, salt));
  }

  /** When normalisation changes the address, logging in with the address as
      typed at registration finds no document (401), unless an older
      document already holds that exact address. */
  lemma RegisterThenRawLoginFails(users: seq<UserDoc>, u: NewUser, freshId: string, salt: string,
                                  t1: int, t2: int, h: Hasher, normalize: string -> string, password: string)
    requires Register(users, u, freshId, salt, t1, h, normalize).Ok?
    requires normalize(u.email) != u.email
    requires !EmailTaken(users, u.email)
    ensures Login(Register(users, u, freshId, salt, t1, h, normalize).value.0, u.email, password, t2, h)
            == Err(Unauthorized)
  {
    var users' := Register(users, u, freshId, salt, t1, h, normalize).value.0;
    var d := users'[|users|];
    assert users' == users + [d];
    FindByEmailAppend(users, d, u.email);
  }
}

=== FILE: catalogue.dfy ===
/** Properties of the catalogue store: the index invariant each write keeps
    (or, for `update_content` as written, breaks), the listing's filters and
    pages, and the set behaviour of the store-level `my_list`. */
module Catalogue {
  import opened Common
  import opened Keys
  import opened Values
  import opened Python
  import opened FirebaseDB

  // ------------------------------------------------------------------
  // The index invariant

  /** `create_content` with a fresh id keeps the indexes in agreement with the records. */
  lemma CreateContentKeepsConsistency(db: Db, data: Record, id: string, now: string)
    requires TypeIsKey(data) && id !in db.content
    requires Consistent(db)
    ensures Consistent(CreateContent(db, data, id, now))
  {
    var r := CreateContent(db, data, id, now);
    forall t, x ensures Holds(r.contentByType, t, x) <==> TypeIndexed(r, t, x) {
      if x == id {
        assert !TypeIndexed(db, t, id);
        assert r.content[id] == Stored(WithMetadata(data, id, now));
      } else {
        assert TypeIndexed(r, t, x) <==> TypeIndexed(db, t, x);
      }
    }
    forall g, x ensures Holds(r.contentByGenre, g, x) <==> GenreIndexed(r, g, x) {
      if x == id {
        assert !GenreIndexed(db, g, id);
        assert GenresOf(r.content[id]) == GenresOf(data);
      } else {
        assert GenreIndexed(r, g, x) <==> GenreIndexed(db, g, x);
      }
    }
  }

  /** `create_content` keeps the database's structural facts. */
  lemma CreateContentKeepsWellFormed(db: Db, data: Record, id: string, now: string)
    requires TypeIsKey(data) && id !in db.content
    requires WellFormed(db)
    ensures WellFormed(CreateContent(db, data, id, now))
  {
    var r := CreateContent(db, data, id, now);
    assert r.contentKeys == Insert(db.contentKeys, id);
    assert r.contentByType == FileType(db.contentByType, WithMetadata(data, id, now), id);
    assert r.contentByGenre == FileGenres(db.contentByGenre, WithMetadata(data, id, now), id);
    assert "id" in r.content[id];
  }

  /** `delete_content` on consistent indexes leaves them consistent, and no
      index refers to the deleted id any more. */
  lemma DeleteContentUnfilesId(db: Db, id: string)
    requires id in db.content ==> TypeIsKey(db.content[id])
    requires Consistent(db)
    ensures Consistent(DeleteContent(db, id))
    ensures forall k :: !Holds(DeleteContent(db, id).contentByType, k, id)
    ensures forall k :: !Holds(DeleteContent(db, id).contentByGenre, k, id)
  {
    var r := DeleteContent(db, id);
    forall t, x ensures Holds(r.contentByType, t, x) <==> TypeIndexed(r, t, x) {
      if x != id {
        assert TypeIndexed(r, t, x) <==> TypeIndexed(db, t, x);
      }
    }
    forall g, x ensures Holds(r.contentByGenre, g, x) <==> GenreIndexed(r, g, x) {
      if x != id {
        assert GenreIndexed(r, g, x) <==> GenreIndexed(db, g, x);
      }
    }
  }

  /** Without consistent indexes beforehand the clean-up can miss entries:
      an id filed under a type its record does not have survives the delete. */
  lemma DeleteContentNeedsConsistency()
    ensures var db := Db(map[], map[], map["c" := map["title" := Str("x")]], ["c"], map["movie" := ["c"]], map[]);
            Holds(DeleteContent(db, "c").contentByType, "movie", "c")
  {
  }

  /** `delete_content` keeps the database's structural facts. */
  lemma DeleteContentKeepsWellFormed(db: Db, id: string)
    requires WellFormed(db)
    ensures WellFormed(DeleteContent(db, id))
  {
    var r := DeleteContent(db, id);
    assert r.contentKeys == Remove(db.contentKeys, id);
  }

  /** `update_content`, as written, keeps the database's structural facts:
      its defect is in which entries stay filed, not in their shape. */
  lemma UpdateContentKeepsWellFormed(db: Db, id: string, data: Record, now: string)
    requires WellFormed(db) && TypeIsKey(data)
    ensures WellFormed(UpdateContent(db, id, data, now))
  {
    var r := UpdateContent(db, id, data, now);
    assert TypeIsKey(RecordOf(db.content, id));
    StoredIdKeepsWellFormed(db, r, id);
  }

  /** The corrected update keeps the database's structural facts. */
  lemma UpdateContentFixedKeepsWellFormed(db: Db, id: string, data: Record, now: string)
    requires WellFormed(db) && TypeIsKey(data)
    ensures WellFormed(UpdateContentFixed(db, id, data, now))
  {
    var r := UpdateContentFixed(db, id, data, now);
    assert TypeIsKey(RecordOf(db.content, id));
    StoredIdKeepsWellFormed(db, r, id);
  }

  /** A database that differs from a well-formed one only in the record
      stored under `id`, with `id` listed once among the content keys and
      well-formed index nodes, is well formed. */
  lemma StoredIdKeepsWellFormed(db: Db, r: Db, id: string)
    requires WellFormed(db)
    requires Distinct(r.contentKeys) && forall x :: x in r.contentKeys <==> x in db.contentKeys || x == id
    requires id in r.content && r.content[id] != map[] && TypeIsKey(r.content[id])
    requires SameExcept(db.content, r.content, id)
    requires IndexWellFormed(r.contentByType) && IndexWellFormed(r.contentByGenre)
    ensures WellFormed(r)
  {
  }

  /** FINDING, as written: after `update_content` changes the type of a
      consistently indexed record, the id is still filed under its old type,
      so "an id appears only under its current type" fails. */
  lemma UpdateContentLeavesStaleType(db: Db, id: string, data: Record, now: string, oldType: string)
    requires TypeIsKey(data) && "type" in data && data["type"] != Str(oldType)
    requires Consistent(db) && TypeIndexed(db, oldType, id)
    ensures Holds(UpdateContent(db, id, data, now).contentByType, oldType, id)
    ensures !TypeIndexed(UpdateContent(db, id, data, now), oldType, id)
    ensures !Consistent(UpdateContent(db, id, data, now))
  {
    var r := UpdateContent(db, id, data, now);
    assert Holds(db.contentByType, oldType, id);
    assert !HasType(r.content[id], oldType);
  }

  /** The same defect on a concrete catalogue: a movie re-typed as a series
      is listed under both types afterwards. */
  lemma UpdateContentStaleExample()
    ensures var db := Db(map[], map[], map["c" := map["type" := Str("movie")]], ["c"], map["movie" := ["c"]], map[]);
            var r := UpdateContent(db, "c", map["type" := Str("series")], "t1");
            Holds(r.contentByType, "movie", "c") && Holds(r.contentByType, "series", "c")
  {
    var db := Db(map[], map[], map["c" := map["type" := Str("movie")]], ["c"], map["movie" := ["c"]], map[]);
    assert Holds(db.contentByType, "movie", "c");
  }

  /** Corrected: reading the old values before the write keeps the indexes consistent. */
  lemma UpdateContentFixedKeepsConsistency(db: Db, id: string, data: Record, now: string)
    requires TypeIsKey(data) && (id in db.content ==> TypeIsKey(db.content[id]))
    requires Consistent(db)
    ensures Consistent(UpdateContentFixed(db, id, data, now))
  {
    var r := UpdateContentFixed(db, id, data, now);
    var prev := RecordOf(db.content, id);
    var rec := r.content[id];
    assert rec == Updated(prev, data, now);
    forall t, x ensures Holds(r.contentByType, t, x) <==> TypeIndexed(r, t, x) {
      if x != id {
        assert TypeIndexed(r, t, x) <==> TypeIndexed(db, t, x);
      } else if "type" !in data {
        assert TypeIndexed(r, t, id) <==> HasType(prev, t);
      }
    }
    forall g, x ensures Holds(r.contentByGenre, g, x) <==> GenreIndexed(r, g, x) {
      if x != id {
        assert GenreIndexed(r, g, x) <==> GenreIndexed(db, g, x);
      } else if "genre" !in data {
        assert GenreIndexed(r, g, id) <==> g in GenresOf(prev);
      }
    }
  }

  // ------------------------------------------------------------------
  // Listing

  /** A non-empty type filter decides the selection alone: the genre is not consulted. */
  lemma TypeFilterTakesPrecedence(db: Db, t: Option<string>, g1: Option<string>, g2: Option<string>, limit: int, offset: int)
    requires Given(t)
    ensures GetContentList(db, t, g1, limit, offset) == GetContentList(db, t, g2, limit, offset)
  {
  }

  /** With consistent indexes, every record listed under a type has that type. */
  lemma ListedByTypeHaveType(db: Db, t: Option<string>, genre: Option<string>, limit: int, offset: int)
    requires Consistent(db) && Given(t)
    ensures forall rec :: rec in GetContentList(db, t, genre, limit, offset).0 ==> HasType(rec, t.value)
  {
    var ids := SelectedIds(db, t, genre);
    forall rec | rec in GetContentList(db, t, genre, limit, offset).0
      ensures HasType(rec, t.value)
    {
      var x :| ids.Some? && x in ids.value && Present(db.content, x) && db.content[x] == rec;
      assert Holds(db.contentByType, t.value, x);
      assert TypeIndexed(db, t.value, x);
    }
  }

  /** With consistent indexes, every record listed under a genre (and no type) lists that genre. */
  lemma ListedByGenreHaveGenre(db: Db, t: Option<string>, genre: Option<string>, limit: int, offset: int)
    requires Consistent(db) && !Given(t) && Given(genre)
    ensures forall rec :: rec in GetContentList(db, t, genre, limit, offset).0 ==> genre.value in GenresOf(rec)
  {
    var ids := SelectedIds(db, t, genre);
    forall rec | rec in GetContentList(db, t, genre, limit, offset).0
      ensures genre.value in GenresOf(rec)
    {
      var x :| ids.Some? && x in ids.value && Present(db.content, x) && db.content[x] == rec;
      assert Holds(db.contentByGenre, genre.value, x);
      assert GenreIndexed(db, genre.value, x);
    }
  }

  /** Pages at `offset` and `offset + limit` are adjacent windows: together
      they are exactly the page of twice the size, so none overlaps the other. */
  lemma ConsecutivePagesAdjacent(db: Db, t: Option<string>, genre: Option<string>, limit: int, offset: int)
    requires 0 <= offset && 0 <= limit
    ensures GetContentList(db, t, genre, limit, offset).0 + GetContentList(db, t, genre, limit, offset + limit).0
            == GetContentList(db, t, genre, 2 * limit, offset).0
    ensures GetContentList(db, t, genre, limit, offset).1 == GetContentList(db, t, genre, limit, offset + limit).1
  {
    match SelectedIds(db, t, genre)
    case None =>
    case Some(ids) =>
      PagesAdjacent(db.content, ids, limit, offset);
  }

  lemma PagesAdjacent(content: map<string, Record>, ids: seq<string>, limit: int, offset: int)
    requires 0 <= offset && 0 <= limit
    ensures Page(content, ids, limit, offset) + Page(content, ids, limit, offset + limit)
            == Page(content, ids, 2 * limit, offset)
  {
    PagesSplit(content, ids, limit, limit, offset, 2 * limit);
  }

  /** A page of `l1` records followed by the page of `l2` records starting
      where it ends is the page of `total == l1 + l2` records. */
  lemma PagesSplit(content: map<string, Record>, ids: seq<string>, l1: int, l2: int, offset: int, total: int)
    requires 0 <= offset && 0 <= l1 && 0 <= l2 && total == l1 + l2
    ensures Page(content, ids, l1, offset) + Page(content, ids, l2, offset + l1) == Page(content, ids, total, offset)
  {
    RecordsSplit(content, ids, offset, l1, l2, total);
  }

  /** The records of two adjacent windows are the records of the window spanning both. */
  lemma RecordsSplit(content: map<string, Record>, ids: seq<string>, i: int, a: int, b: int, t: int)
    requires 0 <= i && 0 <= a && 0 <= b && t == a + b
    ensures Records(content, Slice(ids, i, i + a)) + Records(content, Slice(ids, i + a, i + a + b))
            == Records(content, Slice(ids, i, i + t))
  {
    SliceSplit(ids, i, a, b, t);
    RecordsAppend(content, Slice(ids, i, i + a), Slice(ids, i + a, i + a + b));
  }

  /** A distinct sequence has as many elements as the set of its elements. */
  lemma {:induction false} DistinctCard(s: seq<string>)
    requires Distinct(s)
    ensures |set x | x in s| == |s|
  {
    if s != [] {
      var rest := s[1..];
      assert Distinct(rest);
      DistinctCard(rest);
      assert (set x | x in s) == (set x | x in rest) + {s[0]};
      assert s[0] !in rest;
    }
  }

  /** Without filters the total is the number of stored content records. */
  lemma UnfilteredTotal(db: Db, limit: int, offset: int)
    requires WellFormed(db)
    ensures GetContentList(db, None, None, limit, offset).1 == |db.content|
  {
    DistinctCard(db.contentKeys);
    assert (set x | x in db.contentKeys) == db.content.Keys;
  }

  /** The first page of an unfiltered listing, with a limit covering the
      whole catalogue, is every stored record in key order. */
  lemma UnfilteredFullPage(db: Db, limit: int)
    requires WellFormed(db) && |db.contentKeys| <= limit
    ensures GetContentList(db, None, None, limit, 0).0 == Records(db.content, db.contentKeys)
    ensures |GetContentList(db, None, None, limit, 0).0| == |db.content|
  {
    UnfilteredPageIsAll(db, limit);
    UnfilteredTotal(db, limit, 0);
    assert |Records(db.content, db.contentKeys)| == |db.contentKeys|;
  }

  /** On a well-formed store every content key has a record, so the first
      unfiltered page with a covering limit fetches them all. */
  lemma UnfilteredPageIsAll(db: Db, limit: int)
    requires WellFormed(db) && |db.contentKeys| <= limit
    ensures GetContentList(db, None, None, limit, 0).0 == Records(db.content, db.contentKeys)
    ensures |Records(db.content, db.contentKeys)| == |db.contentKeys|
  {
    var keys := db.contentKeys;
    assert forall k :: 0 <= k < |keys| ==> Present(db.content, keys[k]);
    FirstPageIsAll(db.content, keys, limit);
    if keys == [] {
      assert SelectedIds(db, None, None).None?;
    } else {
      assert SelectedIds(db, None, None) == Some(keys);
    }
  }

  /** A first page whose limit covers an id list, all of whose ids have
      records, fetches the record of every id. */
  lemma FirstPageIsAll(content: map<string, Record>, ids: seq<string>, limit: int)
    requires |ids| <= limit
    requires forall k :: 0 <= k < |ids| ==> Present(content, ids[k])
    ensures Page(content, ids, limit, 0) == Records(content, ids)
    ensures |Records(content, ids)| == |ids|
  {
    assert Slice(ids, 0, 0 + limit) == ids[0..|ids|];
    assert ids[0..|ids|] == ids;
  }

  // ------------------------------------------------------------------
  // The store-level my_list is a set of keys

  lemma AddToUserListIdempotent(db: Db, uid: string, cid: string)
    requires ListIsKeySet(db, uid)
    ensures AddToUserList(AddToUserList(db, uid, cid), uid, cid) == AddToUserList(db, uid, cid)
  {
    var once := AddToUserList(db, uid, cid);
    assert cid in ListedKeys(once, uid);
    assert Insert(ListedKeys(once, uid), cid) == ListedKeys(once, uid);
    assert RecordOf(once.users, uid)["my_list" := Flags(ListedKeys(once, uid))] == RecordOf(once.users, uid);
  }

  lemma RemoveFromUserListIdempotent(db: Db, uid: string, cid: string)
    requires ListIsKeySet(db, uid)
    ensures RemoveFromUserList(RemoveFromUserList(db, uid, cid), uid, cid) == RemoveFromUserList(db, uid, cid)
  {
    var once := RemoveFromUserList(db, uid, cid);
    var rec := RecordOf(once.users, uid);
    if "my_list" in rec {
      assert cid !in rec["my_list"].keys;
      assert Remove(rec["my_list"].keys, cid) == rec["my_list"].keys;
      assert rec["my_list" := Flags(rec["my_list"].keys)] == rec;
    }
  }

  /** The record of every listed id that exists is among the records listed. */
  lemma {:induction false} RecordsInclude(content: map<string, Record>, ids: seq<string>, x: string)
    requires x in ids && Present(content, x)
    ensures content[x] in Records(content, ids)
  {
    if ids[0] != x {
      RecordsInclude(content, ids[1..], x);
    }
  }

  /** After adding an existing content id, the user's list contains its record. */
  lemma AddedContentIsListed(db: Db, uid: string, cid: string)
    requires ListIsKeySet(db, uid) && Present(db.content, cid)
    ensures GetUserList(AddToUserList(db, uid, cid), uid).Ok?
    ensures db.content[cid] in GetUserList(AddToUserList(db, uid, cid), uid).value
  {
    var r := AddToUserList(db, uid, cid);
    assert cid in ListedKeys(r, uid);
    RecordsInclude(r.content, ListedKeys(r, uid), cid);
  }

  // ------------------------------------------------------------------
  // Users

  /** The email index is case-insensitive: two spellings that lower-case alike find the same user. */
  lemma EmailLookupIgnoresCase(db: Db, e1: string, e2: string)
    requires Lower(e1) == Lower(e2)
    ensures GetUserByEmail(db, e1) == GetUserByEmail(db, e2)
  {
  }
}

=== FILE: common.dfy ===
/** Outcome types shared by the store model and the route models. */
module Common {

  datatype Option<+T> = None | Some(value: T)

  /** Either a value, or the error outcome an HTTP handler answers with. */
  datatype Result<+T, +E> = Ok(value: T) | Err(error: E)

  /** The error responses the routes produce. `ServerError` also stands for
      an exception the store layer lets escape. */
  datatype Status = BadRequest | Unauthorized | NotFound | Unprocessable | ServerError
  {
    function Code(): int {
      match this
      case BadRequest => 400
      case Unauthorized => 401
      case NotFound => 404
      case Unprocessable => 422
      case ServerError => 500
    }
  }

  /** Python truthiness of an optional string parameter: given and non-empty. */
  predicate Given(p: Option<string>) {
    p.Some? && p.value != ""
  }
}

=== FILE: content_query.dfy ===
/** The catalogue query of `GET /api/content/` (app/routes/content.py):
    parameter bounds, the query built from the optional filters, and the
    skip/limit window over the matching documents. */
module ContentQuery {
  import opened Common

  /** The `Query(1, gt=0)` and `Query(10, gt=0, le=100)` defaults and bound. */
  const DefaultPage := 1
  const DefaultLimit := 10
  const MaxLimit := 100

  /** A catalogue document, with the fields of the `Content` model the query
      reads (the float `rating` is left out). */
  datatype Content = Content(
    title: string,
    description: string,
    contentType: string,
    genre: seq<string>,
    releaseYear: int,
    duration: string,
    thumbnailUrl: Option<string>,
    videoUrl: Option<string>,
    trailerUrl: Option<string>,
    cast: seq<string>,
    director: string,
    id: string)

  /** The query document: a filter is present exactly when its parameter was truthy. */
  datatype Query = Query(genre: Option<string>, contentType: Option<string>, search: Option<string>)

  function Keep(p: Option<string>): (q: Option<string>)
    ensures q.Some? <==> Given(p)
    ensures q.Some? ==> q == p
  {
    if Given(p) then p else None
  }

  /** The query document built from the three optional parameters. */
  function BuildQuery(genre: Option<string>, contentType: Option<string>, search: Option<string>): (q: Query)
    ensures q.genre.Some? <==> Given(genre)
    ensures q.contentType.Some? <==> Given(contentType)
    ensures q.search.Some? <==> Given(search)
    ensures q.genre.Some? ==> q.genre == genre
    ensures q.contentType.Some? ==> q.contentType == contentType
    ensures q.search.Some? ==> q.search == search
  {
    Query(Keep(genre), Keep(contentType), Keep(search))
  }

  /** Whether a document satisfies the query. A genre matches an element of
      the document's genre array; `matches(pattern, text)` stands for the
      case-insensitive regular-expression match on title or description. */
  predicate Selects(q: Query, item: Content, matches: (string, string) -> bool) {
    && (q.genre.Some? ==> q.genre.value in item.genre)
    && (q.contentType.Some? ==> item.contentType == q.contentType.value)
    && (q.search.Some? ==> matches(q.search.value, item.title) || matches(q.search.value, item.description))
  }

  /** `db.content.find(query)`: the selected documents in collection order. */
  function Find(coll: seq<Content>, q: Query, matches: (string, string) -> bool): (r: seq<Content>)
    ensures |r| <= |coll|
    ensures forall x :: x in r <==> x in coll && Selects(q, x, matches)
  {
    if coll == [] then []
    else
      var rest := Find(coll[1..], q, matches);
      assert forall x :: x in coll <==> x == coll[0] || x in coll[1..];
      if Selects(q, coll[0], matches) then [coll[0]] + rest else rest
  }

  /** Finding in two pieces is finding in each: the order of the collection is kept. */
  lemma {:induction false} FindAppend(a: seq<Content>, b: seq<Content>, q: Query, matches: (string, string) -> bool)
    ensures Find(a + b, q, matches) == Find(a, q, matches) + Find(b, q, matches)
  {
    if a == [] {
      assert a + b == b;
    } else {
      assert (a + b)[1..] == a[1..] + b;
      FindAppend(a[1..], b, q, matches);
    }
  }

  /** With no filter given, every document is selected in collection order. */
  lemma {:induction false} NoFilterSelectsAll(coll: seq<Content>, matches: (string, string) -> bool)
    ensures Find(coll, BuildQuery(None, None, None), matches) == coll
  {
    if coll != [] {
      NoFilterSelectsAll(coll[1..], matches);
      assert [coll[0]] + coll[1..] == coll;
    }
  }

  /** The selection predicate, stated on the raw parameters: each truthy
      parameter is a constraint, an absent or empty one is none. */
  lemma SelectsIff(genre: Option<string>, contentType: Option<string>, search: Option<string>,
                   item: Content, matches: (string, string) -> bool)
    ensures Selects(BuildQuery(genre, contentType, search), item, matches) <==>
            && (Given(genre) ==> genre.value in item.genre)
            && (Given(contentType) ==> item.contentType == contentType.value)
            && (Given(search) ==> matches(search.value, item.title) || matches(search.value, item.description))
  {
  }

  /** The number of documents skipped before page `page`. */
  function Skip(page: int, limit: int): (s: nat)
    requires page >= 1 && limit >= 1
    ensures s < page * limit
    ensures s + limit == page * limit
  {
    (page - 1) * limit
  }

  /** `.skip(skip).limit(limit)` followed by `to_list(length=limit)`. */
  function Window(hits: seq<Content>, skip: nat, limit: nat): (r: seq<Content>)
    ensures |r| <= limit
    ensures skip <= |hits| ==> r == hits[skip..if skip + limit <= |hits| then skip + limit else |hits|]
    ensures skip >= |hits| ==> r == []
  {
    if skip >= |hits| then []
    else if skip + limit <= |hits| then hits[skip..skip + limit]
    else hits[skip..]
  }

  /** The parameter bounds `Query` declares for `page` and `limit`. */
  predicate InBounds(page: int, limit: int) {
    page >= 1 && 1 <= limit <= MaxLimit
  }

  /** Whether the server accepts the search pattern: a truthy `search` is
      sent as a raw `$regex`, and `valid(pattern)` stands for the server
      compiling it. An absent or empty search sends no pattern. */
  predicate Compiles(search: Option<string>, valid: string -> bool) {
    Given(search) ==> valid(search.value)
  }

  /** The `ContentType` enum of the `Content` response model: a returned
      document of any other type fails response validation. */
  predicate Conforms(item: Content) {
    item.contentType == "movie" || item.contentType == "series"
  }

  /** The largest skip a BSON 64-bit integer carries to the server. */
  const MaxSkip := 0x7FFF_FFFF_FFFF_FFFF

  /** The documents `to_list` hands back for a page, before the response is validated. */
  function Fetch(coll: seq<Content>, page: int, limit: int,
                 genre: Option<string>, contentType: Option<string>, search: Option<string>,
                 matches: (string, string) -> bool): (r: seq<Content>)
    requires InBounds(page, limit)
    ensures |r| <= limit
    ensures forall x :: x in r ==> x in coll && Selects(BuildQuery(genre, contentType, search), x, matches)
  {
    var hits := Find(coll, BuildQuery(genre, contentType, search), matches);
    var window := Window(hits, Skip(page, limit), limit);
    assert forall x :: x in window ==> x in hits;
    window
  }

  /** Whether a page in bounds is served: its skip fits the wire format and
      every document fetched for it passes the response model. */
  predicate Served(coll: seq<Content>, page: int, limit: int,
                   genre: Option<string>, contentType: Option<string>, search: Option<string>,
                   matches: (string, string) -> bool)
    requires InBounds(page, limit)
  {
    && Skip(page, limit) <= MaxSkip
    && forall x :: x in Fetch(coll, page, limit, genre, contentType, search, matches) ==> Conforms(x)
  }

  /** `get_content`: 422 unless `page > 0` and `0 < limit <= 100`; 500 when
      the server refuses the search pattern or the skip, both raised inside
      the `try`, or when a fetched document fails `response_model=List[Content]`;
      otherwise the window of matching documents for that page. */
  function GetContent(coll: seq<Content>, page: int, limit: int,
                      genre: Option<string>, contentType: Option<string>, search: Option<string>,
                      matches: (string, string) -> bool, valid: string -> bool): (r: Result<seq<Content>, Status>)
    ensures r.Ok? <==> InBounds(page, limit) && Compiles(search, valid) &&
                       Served(coll, page, limit, genre, contentType, search, matches)
    ensures !InBounds(page, limit) ==> r == Err(Unprocessable) && r.error.Code() == 422
    ensures InBounds(page, limit) && r.Err? ==> r == Err(ServerError) && r.error.Code() == 500
    ensures InBounds(page, limit) && !Compiles(search, valid) ==> r == Err(ServerError)
    ensures InBounds(page, limit) && Skip(page, limit) > MaxSkip ==> r == Err(ServerError)
    ensures r.Ok? ==> |r.value| <= limit
    ensures r.Ok? ==> forall x :: x in r.value ==>
              x in coll && Conforms(x) && Selects(BuildQuery(genre, contentType, search), x, matches)
  {
    if !(page > 0) || !(0 < limit <= MaxLimit) then Err(Unprocessable)
    else if Given(search) && !valid(search.value) then Err(ServerError)
    else if (page - 1) * limit > MaxSkip then Err(ServerError)
    else
      var content := Fetch(coll, page, limit, genre, contentType, search, matches);
      if forall x :: x in content ==> Conforms(x) then Ok(content) else Err(ServerError)
  }

  /** The request as received: an omitted `page` or `limit` parameter takes
      its declared default before the bounds are checked. */
  function GetContentRequest(coll: seq<Content>, page: Option<int>, limit: Option<int>,
                             genre: Option<string>, contentType: Option<string>, search: Option<string>,
                             matches: (string, string) -> bool, valid: string -> bool)
    : (r: Result<seq<Content>, Status>)
    ensures r.Ok? ==> (page.None? || page.value >= 1) && (limit.None? || 1 <= limit.value <= MaxLimit) &&
                      Compiles(search, valid)
    ensures r.Err? ==> r == Err(Unprocessable) || r == Err(ServerError)
    ensures (page.None? || page.value >= 1) && (limit.None? || 1 <= limit.value <= MaxLimit) ==>
              r != Err(Unprocessable)
    ensures r.Ok? && limit.None? ==> |r.value| <= DefaultLimit
    ensures page.None? && limit.None? && Compiles(search, valid) &&
            (forall x :: x in coll ==> Conforms(x)) ==>
              r.Ok? && r.value == Window(Find(coll, BuildQuery(genre, contentType, search), matches), 0, DefaultLimit)
    ensures page.None? && limit.None? ==>
              var first := Window(Find(coll, BuildQuery(genre, contentType, search), matches), 0, DefaultLimit);
              (r.Ok? <==> Compiles(search, valid) && forall x :: x in first ==> Conforms(x))
  {
    var p := if page.Some? then page.value else DefaultPage;
    var l := if limit.Some? then limit.value else DefaultLimit;
    GetContent(coll, p, l, genre, contentType, search, matches, valid)
  }

  /** A fetched document outside the `ContentType` enum turns the whole
      answer into a 500: here, a first document of another type on page 1. */
  lemma NonConformingIsServerError(coll: seq<Content>, limit: int,
                                   matches: (string, string) -> bool, valid: string -> bool)
    requires coll != [] && !Conforms(coll[0]) && 1 <= limit <= MaxLimit
    ensures GetContent(coll, 1, limit, None, None, None, matches, valid) == Err(ServerError)
  {
    NoFilterSelectsAll(coll, matches);
    assert Fetch(coll, 1, limit, None, None, None, matches)[0] == coll[0];
  }

  /** A page whose skip does not fit a 64-bit integer is a 500, however
      small the collection. */
  lemma HugeSkipIsServerError(coll: seq<Content>, page: int, limit: int,
                              genre: Option<string>, contentType: Option<string>, search: Option<string>,
                              matches: (string, string) -> bool, valid: string -> bool)
    requires page > MaxSkip + 1 && 1 <= limit <= MaxLimit
    ensures GetContent(coll, page, limit, genre, contentType, search, matches, valid) == Err(ServerError)
  {
    assert (page - 1) * limit >= page - 1;
  }

  /** Pages `p` and `p + 1` are adjacent and do not overlap: together they are
      the `2 * limit` matching documents starting where page `p` starts. */
  lemma ConsecutivePages(coll: seq<Content>, p: int, limit: int,
                         genre: Option<string>, contentType: Option<string>, search: Option<string>,
                         matches: (string, string) -> bool, valid: string -> bool)
    requires p >= 1 && 1 <= limit <= MaxLimit && Compiles(search, valid)
    requires forall x :: x in coll ==> Conforms(x)
    requires p * limit <= MaxSkip
    ensures GetContent(coll, p, limit, genre, contentType, search, matches, valid).Ok?
    ensures GetContent(coll, p + 1, limit, genre, contentType, search, matches, valid).Ok?
    ensures GetContent(coll, p, limit, genre, contentType, search, matches, valid).value
            + GetContent(coll, p + 1, limit, genre, contentType, search, matches, valid).value
            == Window(Find(coll, BuildQuery(genre, contentType, search), matches), Skip(p, limit), 2 * limit)
  {
    var hits := Find(coll, BuildQuery(genre, contentType, search), matches);
    var s := Skip(p, limit);
    assert (p + 1) * limit == p * limit + limit;
    assert Skip(p + 1, limit) == s + limit;
    assert GetContent(coll, p, limit, genre, contentType, search, matches, valid).value == Window(hits, s, limit);
    assert GetContent(coll, p + 1, limit, genre, contentType, search, matches, valid).value == Window(hits, s + limit, limit);
    WindowsAdjacent(hits, s, limit);
  }

  lemma WindowsAdjacent(hits: seq<Content>, s: nat, limit: nat)
    ensures Window(hits, s, limit) + Window(hits, s + limit, limit) == Window(hits, s, 2 * limit)
  {
    var n := |hits|;
    if s >= n {
    } else if s + limit >= n {
      assert Window(hits, s + limit, limit) == [];
    } else if s + 2 * limit <= n {
      assert hits[s..s + limit] + hits[s + limit..s + 2 * limit] == hits[s..s + 2 * limit];
    } else {
      assert hits[s..s + limit] + hits[s + limit..] == hits[s..];
    }
  }

  /** A document that matches the query and sits inside page `p`'s window is on that page. */
  lemma PageIsComplete(coll: seq<Content>, p: int, limit: int,
                       genre: Option<string>, contentType: Option<string>, search: Option<string>,
                       matches: (string, string) -> bool, valid: string -> bool, k: int)
    requires p >= 1 && 1 <= limit <= MaxLimit && Compiles(search, valid)
    requires forall x :: x in coll ==> Conforms(x)
    requires Skip(p, limit) <= MaxSkip
    requires var hits := Find(coll, BuildQuery(genre, contentType, search), matches);
             Skip(p, limit) <= k < |hits| && k < Skip(p, limit) + limit
    ensures Find(coll, BuildQuery(genre, contentType, search), matches)[k]
            in GetContent(coll, p, limit, genre, contentType, search, matches, valid).value
  {
    var hits := Find(coll, BuildQuery(genre, contentType, search), matches);
    var w := Fetch(coll, p, limit, genre, contentType, search, matches);
    assert w[k - Skip(p, limit)] == hits[k];
  }
}

=== FILE: firebase.dfy ===
/** The realtime-database store behind `FirebaseDB` (app/utils/firebase.py):
    user records with an email index, catalogue records with a type index and
    a genre index, and each user's `my_list` key set. Every operation is a
    pure function from the database before to the database after. */
module FirebaseDB {
  import opened Common
  import opened Keys
  import opened Values
  import opened Python

  /** An index node: for each key (a content type or a genre), the ids filed under it. */
  type Index = map<string, seq<string>>

  /** The database tree, one component per top-level node. `contentKeys` is
      the order in which the `content` node reports its children. */
  datatype Db = Db(
    users: map<string, Record>,
    userEmails: map<string, string>,
    content: map<string, Record>,
    contentKeys: seq<string>,
    contentByType: Index,
    contentByGenre: Index)

  // ------------------------------------------------------------------
  // Index nodes

  predicate Holds(idx: Index, key: string, id: string) {
    key in idx && id in idx[key]
  }

  function Under(idx: Index, key: string): seq<string> {
    if key in idx then idx[key] else []
  }

  /** No empty index node survives and no id is filed twice under one key. */
  predicate IndexWellFormed(idx: Index) {
    forall key :: key in idx ==> idx[key] != [] && Distinct(idx[key])
  }

  /** `child(key).child(id).set(True)` */
  function IndexSet(idx: Index, key: string, id: string): (r: Index)
    ensures forall k, x :: Holds(r, k, x) <==> Holds(idx, k, x) || (k == key && x == id)
    ensures IndexWellFormed(idx) ==> IndexWellFormed(r)
  {
    idx[key := Insert(Under(idx, key), id)]
  }

  /** `child(key).child(id).delete()`; a node left with no children disappears. */
  function IndexDelete(idx: Index, key: string, id: string): (r: Index)
    ensures forall k, x :: Holds(r, k, x) <==> Holds(idx, k, x) && !(k == key && x == id)
    ensures IndexWellFormed(idx) ==> IndexWellFormed(r)
  {
    if key !in idx then idx
    else
      var rest := Remove(idx[key], id);
      if rest == [] then idx - {key} else idx[key := rest]
  }

  /** The loop `for key in keys: child(key).child(id).set(True)`. */
  function IndexSetAll(idx: Index, keys: seq<string>, id: string): (r: Index)
    ensures forall k, x :: Holds(r, k, x) <==> Holds(idx, k, x) || (k in keys && x == id)
    ensures IndexWellFormed(idx) ==> IndexWellFormed(r)
    decreases |keys|
  {
    if keys == [] then idx else IndexSetAll(IndexSet(idx, keys[0], id), keys[1..], id)
  }

  /** The loop `for key in keys: child(key).child(id).delete()`. */
  function IndexDeleteAll(idx: Index, keys: seq<string>, id: string): (r: Index)
    ensures forall k, x :: Holds(r, k, x) <==> Holds(idx, k, x) && !(k in keys && x == id)
    ensures IndexWellFormed(idx) ==> IndexWellFormed(r)
    decreases |keys|
  {
    if keys == [] then idx else IndexDeleteAll(IndexDelete(idx, keys[0], id), keys[1..], id)
  }

  // ------------------------------------------------------------------
  // Record collections

  /** Every record except the one under `id` is the same in `m` and `m'`. */
  ghost predicate SameExcept(m: map<string, Record>, m': map<string, Record>, id: string) {
    forall x :: x != id ==> (x in m' <==> x in m) && (x in m ==> m'[x] == m[x])
  }

  /** Every field except `field` is the same in `rec` and `rec'`. */
  ghost predicate FieldsKeptExcept(rec: Record, rec': Record, field: string) {
    forall k :: k != field ==> (k in rec' <==> k in rec) && (k in rec ==> rec'[k] == rec[k])
  }

  /** The record a node holds; a missing node reads as no fields. */
  function RecordOf(m: map<string, Record>, id: string): Record {
    if id in m then m[id] else map[]
  }

  /** Writing a record: a record with no stored field is no node at all. */
  function Put(m: map<string, Record>, id: string, rec: Record): (r: map<string, Record>)
    ensures SameExcept(m, r, id)
    ensures RecordOf(r, id) == rec
    ensures id in r <==> rec != map[]
  {
    if rec == map[] then m - {id} else m[id := rec]
  }

  predicate IsMetadata(k: string) {
    k == "id" || k == "created_at" || k == "updated_at"
  }

  /** The fields `create_user` and `create_content` add before storing. */
  function WithMetadata(data: Record, id: string, now: string): Record {
    data["id" := Str(id)]["created_at" := Str(now)]["updated_at" := Str(now)]
  }

  /** The record stored for `data` carries the metadata, and otherwise
      exactly the non-null fields of `data`. */
  ghost predicate StoredAs(rec: Record, data: Record, id: string, now: string) {
    && "id" in rec && rec["id"] == Str(id)
    && "created_at" in rec && rec["created_at"] == Str(now)
    && "updated_at" in rec && rec["updated_at"] == Str(now)
    && (forall k :: !IsMetadata(k) ==> (k in rec <==> k in data && !IsNull(data[k])))
    && (forall k :: !IsMetadata(k) && k in rec ==> rec[k] == data[k])
  }

  lemma StoredWithMetadata(data: Record, id: string, now: string)
    ensures StoredAs(Stored(WithMetadata(data, id, now)), data, id, now)
  {
  }

  // ------------------------------------------------------------------
  // Users

  /** `get_user_by_id`: the record, or None when there is none or it is empty. */
  function GetUserById(db: Db, id: string): (r: Option<Record>)
    ensures r.Some? <==> Present(db.users, id)
    ensures r.Some? ==> r.value == db.users[id] && r.value != map[]
  {
    if Present(db.users, id) then Some(db.users[id]) else None
  }

  /** `get_user_by_email`: looks the lower-cased email up in the email index,
      then the record filed there. */
  function GetUserByEmail(db: Db, email: string): (r: Option<Record>)
    ensures Lower(email) !in db.userEmails ==> r.None?
    ensures r.Some? ==> Lower(email) in db.userEmails && r == GetUserById(db, db.userEmails[Lower(email)])
    ensures Lower(email) in db.userEmails && db.userEmails[Lower(email)] != "" && Present(db.users, db.userEmails[Lower(email)]) ==>
              r == Some(db.users[db.userEmails[Lower(email)]])
  {
    var key := Lower(email);
    if key !in db.userEmails || db.userEmails[key] == "" then None
    else GetUserById(db, db.userEmails[key])
  }

  /** `create_user`: stores the record with its metadata under the fresh id
      and files the id under the lower-cased email. */
  function CreateUser(db: Db, data: Record, id: string, now: string): (r: Db)
    requires "email" in data && data["email"].Str?
    requires id != "" && id !in db.users
    ensures id in r.users && StoredAs(r.users[id], data, id, now)
    ensures SameExcept(db.users, r.users, id)
    ensures forall e :: Lower(e) == Lower(data["email"].s) ==> GetUserByEmail(r, e) == Some(r.users[id])
    ensures forall k :: k != Lower(data["email"].s) ==>
              (k in r.userEmails <==> k in db.userEmails) && (k in db.userEmails ==> r.userEmails[k] == db.userEmails[k])
    ensures r.(users := db.users, userEmails := db.userEmails) == db
  {
    var rec := Stored(WithMetadata(data, id, now));
    StoredWithMetadata(data, id, now);
    db.(users := Put(db.users, id, rec),
        userEmails := db.userEmails[Lower(data["email"].s) := id])
  }

  /** `update_user`: a merge into the record under `id` that also stamps `updated_at`. */
  function UpdateUser(db: Db, id: string, data: Record, now: string): (r: Db)
    ensures Present(r.users, id) && "updated_at" in r.users[id] && r.users[id]["updated_at"] == Str(now)
    ensures forall k :: k in data && k != "updated_at" && !IsNull(data[k]) ==> k in r.users[id] && r.users[id][k] == data[k]
    ensures forall k :: k in data && IsNull(data[k]) && k != "updated_at" ==> k !in r.users[id]
    ensures forall k :: k !in data && k != "updated_at" ==> (k in r.users[id] <==> k in RecordOf(db.users, id))
    ensures forall k :: k !in data && k != "updated_at" && k in RecordOf(db.users, id) ==> r.users[id][k] == db.users[id][k]
    ensures SameExcept(db.users, r.users, id)
    ensures r.(users := db.users) == db
  {
    var upd := data["updated_at" := Str(now)];
    var rec := Merge(RecordOf(db.users, id), upd);
    assert "updated_at" in rec;
    db.(users := Put(db.users, id, rec))
  }

  // ------------------------------------------------------------------
  // Content and its indexes

  /** The source turns `type` into a path key, so it must be a string. */
  predicate TypeIsKey(rec: Record) {
    "type" in rec ==> rec["type"].Str?
  }

  predicate HasType(rec: Record, t: string) {
    "type" in rec && rec["type"] == Str(t)
  }

  /** The genres a record is filed under: its `genre` field when that is a list. */
  function GenresOf(rec: Record): seq<string> {
    if "genre" in rec && rec["genre"].List? then rec["genre"].items else []
  }

  predicate TypeIndexed(db: Db, t: string, id: string) {
    id in db.content && HasType(db.content[id], t)
  }

  predicate GenreIndexed(db: Db, g: string, id: string) {
    id in db.content && g in GenresOf(db.content[id])
  }

  /** The indexes agree with the records: an id is filed under a type (a
      genre) exactly when its record has that type (lists that genre). */
  ghost predicate Consistent(db: Db) {
    && (forall t, id :: Holds(db.contentByType, t, id) <==> TypeIndexed(db, t, id))
    && (forall g, id :: Holds(db.contentByGenre, g, id) <==> GenreIndexed(db, g, id))
  }

  /** The structural facts the database itself guarantees. */
  ghost predicate WellFormed(db: Db) {
    && Distinct(db.contentKeys)
    && (forall id :: id in db.contentKeys <==> id in db.content)
    && IndexWellFormed(db.contentByType)
    && IndexWellFormed(db.contentByGenre)
    && (forall id :: id in db.content ==> db.content[id] != map[] && TypeIsKey(db.content[id]))
  }

  /** `get_content_by_id` */
  function GetContentById(db: Db, id: string): (r: Option<Record>)
    ensures r.Some? <==> Present(db.content, id)
    ensures r.Some? ==> r.value == db.content[id]
  {
    if Present(db.content, id) then Some(db.content[id]) else None
  }

  /** Files `id` under the type of `rec`, when it has one. */
  function FileType(idx: Index, rec: Record, id: string): (r: Index)
    requires TypeIsKey(rec)
    ensures forall t, x :: Holds(r, t, x) <==> Holds(idx, t, x) || (x == id && HasType(rec, t))
    ensures IndexWellFormed(idx) ==> IndexWellFormed(r)
  {
    if "type" in rec then IndexSet(idx, rec["type"].s, id) else idx
  }

  /** Unfiles `id` from the type of `rec`, when `rec` is a record with a type. */
  function UnfileType(idx: Index, rec: Record, id: string): (r: Index)
    requires TypeIsKey(rec)
    ensures forall t, x :: Holds(r, t, x) <==> Holds(idx, t, x) && !(x == id && HasType(rec, t))
    ensures IndexWellFormed(idx) ==> IndexWellFormed(r)
  {
    if rec != map[] && "type" in rec then IndexDelete(idx, rec["type"].s, id) else idx
  }

  /** Files `id` under each genre of `rec`, when its `genre` is a list. */
  function FileGenres(idx: Index, rec: Record, id: string): (r: Index)
    ensures forall g, x :: Holds(r, g, x) <==> Holds(idx, g, x) || (x == id && g in GenresOf(rec))
    ensures IndexWellFormed(idx) ==> IndexWellFormed(r)
  {
    if "genre" in rec && rec["genre"].List? then IndexSetAll(idx, rec["genre"].items, id) else idx
  }

  /** Unfiles `id` from each genre of `rec`, when `rec` is a record whose `genre` is a list. */
  function UnfileGenres(idx: Index, rec: Record, id: string): (r: Index)
    ensures forall g, x :: Holds(r, g, x) <==> Holds(idx, g, x) && !(x == id && g in GenresOf(rec))
    ensures IndexWellFormed(idx) ==> IndexWellFormed(r)
  {
    if rec != map[] && "genre" in rec && rec["genre"].List? then IndexDeleteAll(idx, rec["genre"].items, id) else idx
  }

  /** `create_content`: stores the record under the fresh id, files it under
      its type when it has one and under each genre when `genre` is a list;
      no other index entry changes. */
  function CreateContent(db: Db, data: Record, id: string, now: string): (r: Db)
    requires TypeIsKey(data)
    requires id !in db.content
    ensures id in r.content && StoredAs(r.content[id], data, id, now)
    ensures SameExcept(db.content, r.content, id)
    ensures forall t, x :: Holds(r.contentByType, t, x) <==> Holds(db.contentByType, t, x) || (x == id && HasType(data, t))
    ensures forall g, x :: Holds(r.contentByGenre, g, x) <==> Holds(db.contentByGenre, g, x) || (x == id && g in GenresOf(data))
    ensures r.users == db.users && r.userEmails == db.userEmails
  {
    var rec := WithMetadata(data, id, now);
    StoredWithMetadata(data, id, now);
    assert forall t :: HasType(rec, t) <==> HasType(data, t);
    assert GenresOf(rec) == GenresOf(data);
    db.(content := Put(db.content, id, Stored(rec)),
        contentKeys := Insert(db.contentKeys, id),
        contentByType := FileType(db.contentByType, rec, id),
        contentByGenre := FileGenres(db.contentByGenre, rec, id))
  }

  /** `delete_content`: reads the record, deletes it, then unfiles the id from
      the type and the genres that record had. */
  function DeleteContent(db: Db, id: string): (r: Db)
    requires id in db.content ==> TypeIsKey(db.content[id])
    ensures id !in r.content && id !in r.contentKeys
    ensures SameExcept(db.content, r.content, id)
    ensures forall x :: x in r.contentKeys <==> x in db.contentKeys && x != id
    ensures Distinct(db.contentKeys) ==> Distinct(r.contentKeys)
    ensures forall t, x :: Holds(r.contentByType, t, x) <==> Holds(db.contentByType, t, x) && !(x == id && TypeIndexed(db, t, x))
    ensures forall g, x :: Holds(r.contentByGenre, g, x) <==> Holds(db.contentByGenre, g, x) && !(x == id && GenreIndexed(db, g, x))
    ensures r.users == db.users && r.userEmails == db.userEmails
  {
    var data := RecordOf(db.content, id);
    db.(content := db.content - {id},
        contentKeys := Remove(db.contentKeys, id),
        contentByType := UnfileType(db.contentByType, data, id),
        contentByGenre := UnfileGenres(db.contentByGenre, data, id))
  }

  /** The record `rec` is `prev` updated with `data` and stamped at `now`. */
  ghost predicate MergedInto(rec: Record, prev: Record, data: Record, now: string) {
    && "updated_at" in rec && rec["updated_at"] == Str(now)
    && (forall k :: k in data && k != "updated_at" && !IsNull(data[k]) ==> k in rec && rec[k] == data[k])
    && (forall k :: k in data && k != "updated_at" && IsNull(data[k]) ==> k !in rec)
    && (forall k :: k !in data && k != "updated_at" ==> (k in rec <==> k in prev))
    && (forall k :: k !in data && k != "updated_at" && k in prev ==> rec[k] == prev[k])
  }

  /** The record under `id` after `update(data)` at time `now`. */
  function Updated(prev: Record, data: Record, now: string): (rec: Record)
    ensures MergedInto(rec, prev, data, now)
    ensures rec != map[]
    ensures "type" in data ==> forall t :: HasType(rec, t) <==> HasType(data, t)
    ensures "type" !in data ==> forall t :: HasType(rec, t) <==> HasType(prev, t)
    ensures "genre" in data ==> GenresOf(rec) == GenresOf(data)
    ensures "genre" !in data ==> GenresOf(rec) == GenresOf(prev)
    ensures TypeIsKey(prev) && TypeIsKey(data) ==> TypeIsKey(rec)
  {
    Merge(prev, data["updated_at" := Str(now)])
  }

  /** `update_content` AS WRITTEN: the merge is written first and the "old"
      type and genres are read back afterwards, so the entries removed are
      the new ones (re-added at once) and the old ones stay filed. */
  function UpdateContent(db: Db, id: string, data: Record, now: string): (r: Db)
    requires TypeIsKey(data)
    ensures id in r.content && MergedInto(r.content[id], RecordOf(db.content, id), data, now)
    ensures SameExcept(db.content, r.content, id)
    ensures forall x :: x in r.contentKeys <==> x in db.contentKeys || x == id
    ensures Distinct(db.contentKeys) ==> Distinct(r.contentKeys)
    ensures forall t, x :: x != id ==> (Holds(r.contentByType, t, x) <==> Holds(db.contentByType, t, x))
    ensures forall g, x :: x != id ==> (Holds(r.contentByGenre, g, x) <==> Holds(db.contentByGenre, g, x))
    ensures "type" in data ==> forall t :: Holds(r.contentByType, t, id) <==> Holds(db.contentByType, t, id) || HasType(data, t)
    ensures "type" !in data ==> r.contentByType == db.contentByType
    ensures "genre" in data ==> forall g :: Holds(r.contentByGenre, g, id) <==> Holds(db.contentByGenre, g, id) || g in GenresOf(data)
    ensures "genre" !in data ==> r.contentByGenre == db.contentByGenre
    ensures IndexWellFormed(db.contentByType) ==> IndexWellFormed(r.contentByType)
    ensures IndexWellFormed(db.contentByGenre) ==> IndexWellFormed(r.contentByGenre)
    ensures r.users == db.users && r.userEmails == db.userEmails
  {
    var upd := data["updated_at" := Str(now)];
    var merged := Updated(RecordOf(db.content, id), data, now);
    assert GenresOf(upd) == GenresOf(data);
    assert forall t :: HasType(upd, t) <==> HasType(data, t);
    var byType :=
      if "type" in upd then FileType(UnfileType(db.contentByType, merged, id), upd, id)
      else db.contentByType;
    var byGenre :=
      if "genre" in upd then FileGenres(UnfileGenres(db.contentByGenre, merged, id), upd, id)
      else db.contentByGenre;
    db.(content := Put(db.content, id, merged),
        contentKeys := Insert(db.contentKeys, id),
        contentByType := byType,
        contentByGenre := byGenre)
  }

  /** The type index after the corrected update: with a `type` in the
      data, `id` is unfiled from the type of its stored record and filed
      under the new one; the entries of every other id stay as they are. */
  function TypeIndexAfterUpdate(db: Db, id: string, data: Record, now: string): (r: Index)
    requires TypeIsKey(data)
    requires id in db.content ==> TypeIsKey(db.content[id])
    ensures forall t, x :: x != id ==> (Holds(r, t, x) <==> Holds(db.contentByType, t, x))
    ensures "type" in data ==> forall t :: Holds(r, t, id) <==>
              (Holds(db.contentByType, t, id) && !TypeIndexed(db, t, id)) || HasType(data, t)
    ensures "type" !in data ==> r == db.contentByType
    ensures IndexWellFormed(db.contentByType) ==> IndexWellFormed(r)
  {
    var upd := data["updated_at" := Str(now)];
    var prev := RecordOf(db.content, id);
    assert forall t :: HasType(upd, t) <==> HasType(data, t);
    assert forall t :: TypeIndexed(db, t, id) <==> HasType(prev, t);
    if "type" in upd then FileType(UnfileType(db.contentByType, prev, id), upd, id) else db.contentByType
  }

  /** The genre index after the corrected update, likewise for `genre`. */
  function GenreIndexAfterUpdate(db: Db, id: string, data: Record, now: string): (r: Index)
    ensures forall g, x :: x != id ==> (Holds(r, g, x) <==> Holds(db.contentByGenre, g, x))
    ensures "genre" in data ==> forall g :: Holds(r, g, id) <==>
              (Holds(db.contentByGenre, g, id) && !GenreIndexed(db, g, id)) || g in GenresOf(data)
    ensures "genre" !in data ==> r == db.contentByGenre
    ensures IndexWellFormed(db.contentByGenre) ==> IndexWellFormed(r)
  {
    var upd := data["updated_at" := Str(now)];
    var prev := RecordOf(db.content, id);
    assert GenresOf(upd) == GenresOf(data);
    assert forall g :: GenreIndexed(db, g, id) <==> g in GenresOf(prev);
    if "genre" in upd then FileGenres(UnfileGenres(db.contentByGenre, prev, id), upd, id) else db.contentByGenre
  }

  /** `update_content` as evidently intended: the old type and genres are read
      before the write, unfiled, and then the new ones filed. */
  function UpdateContentFixed(db: Db, id: string, data: Record, now: string): (r: Db)
    requires TypeIsKey(data)
    requires id in db.content ==> TypeIsKey(db.content[id])
    ensures id in r.content && MergedInto(r.content[id], RecordOf(db.content, id), data, now)
    ensures SameExcept(db.content, r.content, id)
    ensures forall x :: x in r.contentKeys <==> x in db.contentKeys || x == id
    ensures Distinct(db.contentKeys) ==> Distinct(r.contentKeys)
    ensures forall t, x :: x != id ==> (Holds(r.contentByType, t, x) <==> Holds(db.contentByType, t, x))
    ensures forall g, x :: x != id ==> (Holds(r.contentByGenre, g, x) <==> Holds(db.contentByGenre, g, x))
    ensures "type" in data ==> forall t :: Holds(r.contentByType, t, id) <==>
              (Holds(db.contentByType, t, id) && !TypeIndexed(db, t, id)) || HasType(data, t)
    ensures "type" !in data ==> r.contentByType == db.contentByType
    ensures "genre" in data ==> forall g :: Holds(r.contentByGenre, g, id) <==>
              (Holds(db.contentByGenre, g, id) && !GenreIndexed(db, g, id)) || g in GenresOf(data)
    ensures "genre" !in data ==> r.contentByGenre == db.contentByGenre
    ensures IndexWellFormed(db.contentByType) ==> IndexWellFormed(r.contentByType)
    ensures IndexWellFormed(db.contentByGenre) ==> IndexWellFormed(r.contentByGenre)
    ensures r.users == db.users && r.userEmails == db.userEmails
  {
    var merged := Updated(RecordOf(db.content, id), data, now);
    db.(content := Put(db.content, id, merged),
        contentKeys := Insert(db.contentKeys, id),
        contentByType := TypeIndexAfterUpdate(db, id, data, now),
        contentByGenre := GenreIndexAfterUpdate(db, id, data, now))
  }

  // ------------------------------------------------------------------
  // Listing

  /** The records behind `ids`, in order, skipping ids with no (or an empty) record. */
  function Records(content: map<string, Record>, ids: seq<string>): (r: seq<Record>)
    ensures |r| <= |ids|
    ensures forall rec :: rec in r ==> exists x :: x in ids && Present(content, x) && content[x] == rec
    ensures (forall k :: 0 <= k < |ids| ==> Present(content, ids[k])) ==>
              |r| == |ids| && forall k :: 0 <= k < |r| ==> r[k] == content[ids[k]]
  {
    if ids == [] then []
    else
      var rest := Records(content, ids[1..]);
      assert forall x :: x in ids[1..] ==> x in ids;
      if Present(content, ids[0]) then [content[ids[0]]] + rest else rest
  }

  /** Every record listed comes from some position of `ids`, and every
      position with a record contributes it. */
  lemma {:induction false} RecordsPositions(content: map<string, Record>, ids: seq<string>)
    ensures forall rec :: rec in Records(content, ids) ==>
              exists k :: 0 <= k < |ids| && Present(content, ids[k]) && content[ids[k]] == rec
    ensures forall k :: 0 <= k < |ids| && Present(content, ids[k]) ==> content[ids[k]] in Records(content, ids)
  {
    if ids != [] {
      RecordsPositions(content, ids[1..]);
      assert forall k :: 1 <= k < |ids| ==> ids[k] == ids[1..][k - 1];
    }
  }

  lemma {:induction false} RecordsAppend(content: map<string, Record>, a: seq<string>, b: seq<string>)
    ensures Records(content, a + b) == Records(content, a) + Records(content, b)
  {
    if a == [] {
      assert a + b == b;
    } else {
      assert (a + b)[1..] == a[1..] + b;
      RecordsAppend(content, a[1..], b);
    }
  }

  /** The ids `get_content_list` pages through: those under the type when one
      is given, else under the genre when one is given, else every content
      id. None is the early `return [], 0` for a missing or empty node. */
  function SelectedIds(db: Db, contentType: Option<string>, genre: Option<string>): (r: Option<seq<string>>)
    ensures r.Some? ==> r.value != []
    ensures Given(contentType) && r.Some? ==> r.value == Under(db.contentByType, contentType.value)
    ensures !Given(contentType) && Given(genre) && r.Some? ==> r.value == Under(db.contentByGenre, genre.value)
    ensures !Given(contentType) && !Given(genre) && r.Some? ==> r.value == db.contentKeys
    ensures WellFormed(db) && r.Some? ==> Distinct(r.value)
    ensures Given(contentType) ==>
              forall x :: (r.Some? && x in r.value) <==> Holds(db.contentByType, contentType.value, x)
    ensures !Given(contentType) && Given(genre) ==>
              forall x :: (r.Some? && x in r.value) <==> Holds(db.contentByGenre, genre.value, x)
    ensures !Given(contentType) && !Given(genre) ==>
              forall x :: (r.Some? && x in r.value) <==> x in db.contentKeys
  {
    if Given(contentType) then
      (if Under(db.contentByType, contentType.value) != [] then Some(db.contentByType[contentType.value]) else None)
    else if Given(genre) then
      (if Under(db.contentByGenre, genre.value) != [] then Some(db.contentByGenre[genre.value]) else None)
    else
      (if db.contentKeys != [] then Some(db.contentKeys) else None)
  }

  /** Position `k` lies in the slice `ids[offset:offset + limit]`. */
  predicate InWindow(ids: seq<string>, offset: int, limit: int, k: int) {
    offset <= k < offset + limit && 0 <= k < |ids|
  }

  /** The records of the ids in the Python slice `ids[offset:offset + limit]`. */
  function Page(content: map<string, Record>, ids: seq<string>, limit: int, offset: int): (r: seq<Record>)
    ensures |r| <= |ids|
    ensures 0 <= limit ==> |r| <= limit
    ensures forall rec :: rec in r ==> exists x :: x in ids && Present(content, x) && content[x] == rec
  {
    Records(content, Slice(ids, offset, offset + limit))
  }

  /** For a non-negative offset and limit a page holds exactly the stored
      records of the positions in the window, and in window order when every
      position there has a record. */
  lemma PageWindow(content: map<string, Record>, ids: seq<string>, limit: int, offset: int)
    requires 0 <= offset && 0 <= limit
    ensures forall rec :: rec in Page(content, ids, limit, offset) ==>
              exists k :: InWindow(ids, offset, limit, k) && Present(content, ids[k]) && content[ids[k]] == rec
    ensures forall k :: InWindow(ids, offset, limit, k) && Present(content, ids[k]) ==>
              content[ids[k]] in Page(content, ids, limit, offset)
    ensures (forall k :: InWindow(ids, offset, limit, k) ==> Present(content, ids[k])) ==>
              var r := Page(content, ids, limit, offset);
              forall j :: 0 <= j < |r| ==> j < limit && offset + j < |ids| && r[j] == content[ids[offset + j]]
  {
    var window := Slice(ids, offset, offset + limit);
    WindowPositions(ids, offset, limit, window);
    RecordsPositions(content, window);
    var r := Records(content, window);
    assert Page(content, ids, limit, offset) == r;
  }

  /** Position `j` of the slice `ids[offset:offset + limit]` is position `offset + j` of `ids`. */
  lemma WindowPositions(ids: seq<string>, offset: int, limit: int, window: seq<string>)
    requires 0 <= offset && 0 <= limit && window == Slice(ids, offset, offset + limit)
    ensures |window| <= limit && (window == [] || offset + |window| <= |ids|)
    ensures forall j :: 0 <= j < |window| ==> j < limit && offset + j < |ids| && window[j] == ids[offset + j]
    ensures forall k :: InWindow(ids, offset, limit, k) ==> k - offset < |window| && window[k - offset] == ids[k]
  {
    SliceNonNegative(ids, offset, offset + limit);
    if offset < |ids| && 0 < limit {
      var e := if offset + limit <= |ids| then offset + limit else |ids|;
      assert window == ids[offset..e];
    }
  }

  /** `get_content_list`: the page of records and the size of the selected id list. */
  function GetContentList(db: Db, contentType: Option<string>, genre: Option<string>, limit: int, offset: int)
    : (r: (seq<Record>, nat))
    ensures |r.0| <= r.1
    ensures 0 <= limit ==> |r.0| <= limit
    ensures SelectedIds(db, contentType, genre).None? ==> r == ([], 0)
    ensures SelectedIds(db, contentType, genre).Some? ==> r.1 == |SelectedIds(db, contentType, genre).value|
    ensures forall rec :: rec in r.0 ==>
              exists x :: SelectedIds(db, contentType, genre).Some? && x in SelectedIds(db, contentType, genre).value
                          && Present(db.content, x) && db.content[x] == rec
    ensures SelectedIds(db, contentType, genre).Some? && 0 <= offset && 0 <= limit ==>
              var ids := SelectedIds(db, contentType, genre).value;
              && (forall rec :: rec in r.0 ==>
                    exists k :: InWindow(ids, offset, limit, k) && Present(db.content, ids[k]) && db.content[ids[k]] == rec)
              && (forall k :: InWindow(ids, offset, limit, k) && Present(db.content, ids[k]) ==> db.content[ids[k]] in r.0)
  {
    match SelectedIds(db, contentType, genre)
    case None => ([], 0)
    case Some(ids) =>
      if 0 <= offset && 0 <= limit then
        PageWindow(db.content, ids, limit, offset);
        (Page(db.content, ids, limit, offset), |ids|)
      else (Page(db.content, ids, limit, offset), |ids|)
  }

  // ------------------------------------------------------------------
  // The store-level my_list: a node of content ids mapped to true

  /** The store-level operations need `my_list` to be the key node they write. */
  predicate ListIsKeySet(db: Db, uid: string) {
    "my_list" in RecordOf(db.users, uid) ==> RecordOf(db.users, uid)["my_list"].Flags?
  }

  function ListedKeys(db: Db, uid: string): seq<string> {
    var rec := RecordOf(db.users, uid);
    if "my_list" in rec && rec["my_list"].Flags? then rec["my_list"].keys else []
  }

  /** `add_to_user_list`: sets `users/<uid>/my_list/<cid>` to true. */
  function AddToUserList(db: Db, uid: string, cid: string): (r: Db)
    requires ListIsKeySet(db, uid)
    ensures ListIsKeySet(r, uid)
    ensures forall x :: x in ListedKeys(r, uid) <==> x in ListedKeys(db, uid) || x == cid
    ensures FieldsKeptExcept(RecordOf(db.users, uid), RecordOf(r.users, uid), "my_list")
    ensures SameExcept(db.users, r.users, uid)
    ensures r.(users := db.users) == db
  {
    var prev := RecordOf(db.users, uid);
    db.(users := Put(db.users, uid, prev["my_list" := Flags(Insert(ListedKeys(db, uid), cid))]))
  }

  /** `remove_from_user_list`: deletes `users/<uid>/my_list/<cid>`; deleting a
      missing child changes nothing. */
  function RemoveFromUserList(db: Db, uid: string, cid: string): (r: Db)
    requires ListIsKeySet(db, uid)
    ensures ListIsKeySet(r, uid)
    ensures forall x :: x in ListedKeys(r, uid) <==> x in ListedKeys(db, uid) && x != cid
    ensures FieldsKeptExcept(RecordOf(db.users, uid), RecordOf(r.users, uid), "my_list")
    ensures SameExcept(db.users, r.users, uid)
    ensures r.(users := db.users) == db
  {
    var prev := RecordOf(db.users, uid);
    if "my_list" !in prev then db
    else
      var rest := Remove(prev["my_list"].keys, cid);
      var rec := if rest == [] then prev - {"my_list"} else prev["my_list" := Flags(rest)];
      db.(users := Put(db.users, uid, rec))
  }

  /** `get_user_list`: the content records of the listed ids that exist, in
      key order. Reading `.keys()` of a `my_list` that is not a key node raises. */
  function GetUserList(db: Db, uid: string): (r: Result<seq<Record>, Status>)
    ensures ListIsKeySet(db, uid) ==> r == Ok(Records(db.content, ListedKeys(db, uid)))
    ensures r.Ok? ==> forall rec :: rec in r.value ==>
              exists x :: x in ListedKeys(db, uid) && Present(db.content, x) && db.content[x] == rec
  {
    var rec := RecordOf(db.users, uid);
    if "my_list" !in rec || !Truthy(rec["my_list"]) then Ok([])
    else if rec["my_list"].Flags? then Ok(Records(db.content, rec["my_list"].keys))
    else Err(ServerError)
  }
}

=== FILE: keys.dfy ===
/** The ordered child keys of a database node whose children are all `true`
    (an index node, or the key set of a record collection). */
module Keys {

  predicate Distinct(s: seq<string>) {
    forall i, j :: 0 <= i < j < |s| ==> s[i] != s[j]
  }

  /** Setting child `k`: a new key joins at the end, an existing key keeps its place. */
  function Insert(s: seq<string>, k: string): (r: seq<string>)
    ensures forall x :: x in r <==> x in s || x == k
    ensures k in s ==> r == s
    ensures Distinct(s) ==> Distinct(r)
  {
    if k in s then s else s + [k]
  }

  /** Deleting child `k`: it is gone, every other key keeps its relative
      order (RemoveAt states the order for a distinct key list). */
  function Remove(s: seq<string>, k: string): (r: seq<string>)
    ensures forall x :: x in r <==> x in s && x != k
    ensures Distinct(s) ==> Distinct(r)
    ensures |r| <= |s|
    ensures k !in s ==> r == s
  {
    if s == [] then []
    else if s[0] == k then Remove(s[1..], k)
    else
      var rest := Remove(s[1..], k);
      assert Distinct(s) ==> s[0] !in s[1..];
      [s[0]] + rest
  }

  /** In a distinct key list, deleting the key at position `i` closes the gap
      and leaves the keys before and after it in their order. */
  lemma {:induction false} RemoveAt(s: seq<string>, k: string, i: int)
    requires Distinct(s) && 0 <= i < |s| && s[i] == k
    ensures Remove(s, k) == s[..i] + s[i + 1..]
  {
    if i == 0 {
      assert k !in s[1..];
    } else {
      assert s[0] != k;
      assert Distinct(s[1..]);
      RemoveAt(s[1..], k, i - 1);
      assert s[1..][..i - 1] == s[1..i] && s[1..][i..] == s[i + 1..];
      assert [s[0]] + s[1..i] == s[..i];
    }
  }
}

=== FILE: my_list_routes.dfy ===
/** The "my list" routes of app/routes/user.py. Here `my_list` is a list
    field of the user record, read with `user.get("my_list", [])` and written
    back whole through `update_user`; this is a different representation from
    the key node the store-level `add_to_user_list` writes. The signed-in
    user's id is a parameter. */
module MyListRoutes {
  import opened Common
  import opened Keys
  import opened Values
  import opened Python
  import opened FirebaseDB

  /** `user.get("my_list", [])` when that is a list: a missing field reads as []. */
  function ReadList(user: Record): (r: Option<seq<string>>)
    ensures "my_list" !in user ==> r == Some([])
    ensures r.Some? && "my_list" in user ==> user["my_list"] == List(r.value)
    ensures r.None? <==> "my_list" in user && !user["my_list"].List?
  {
    if "my_list" !in user then Some([])
    else if user["my_list"].List? then Some(user["my_list"].items)
    else None
  }

  /** Python's `content_id in my_list` on a `my_list` of any kind: element
      membership for a list, key membership for an object, substring for a
      string; on `None` or any other scalar it raises (None). */
  function Membership(v: Value, cid: string): (r: Option<bool>)
    ensures v.List? ==> r == Some(cid in v.items)
    ensures v.Flags? ==> r == Some(cid in v.keys)
    ensures v.Str? ==> r == Some(exists i :: OccursAt(v.s, cid, i))
    ensures r.None? <==> v.Null? || v.Other?
  {
    match v
    case List(xs) => Some(cid in xs)
    case Flags(ks) => Some(cid in ks)
    case Str(s) => Some(Contains(s, cid))
    case Null => None
    case Other(_) => None
  }

  /** The list step of `add_to_my_list`: 400 when the id is already listed,
      otherwise the old list with the id appended at the end. */
  function AppendNew(xs: seq<string>, cid: string): (r: Result<seq<string>, Status>)
    ensures r.Err? <==> cid in xs
    ensures r.Err? ==> r.error == BadRequest
    ensures r.Ok? ==> |r.value| == |xs| + 1 && r.value[..|xs|] == xs && r.value[|xs|] == cid
    ensures r.Ok? && Distinct(xs) ==> Distinct(r.value)
  {
    if cid in xs then Err(BadRequest) else Ok(xs + [cid])
  }

  /** The list step of `remove_from_my_list`: 400 when the id is not listed,
      otherwise its first occurrence is dropped and the rest keep their order. */
  function RemoveListed(xs: seq<string>, cid: string): (r: Result<seq<string>, Status>)
    ensures r.Err? <==> cid !in xs
    ensures r.Err? ==> r.error == BadRequest
    ensures r.Ok? ==> |r.value| == |xs| - 1
    ensures r.Ok? ==> exists i :: 0 <= i < |xs| && xs[i] == cid && cid !in xs[..i] && r.value == xs[..i] + xs[i + 1..]
    ensures r.Ok? && Distinct(xs) ==> cid !in r.value
  {
    if cid !in xs then Err(BadRequest)
    else
      var i := FirstIndex(xs, cid);
      assert Distinct(xs) ==> cid !in xs[i + 1..];
      Ok(RemoveFirst(xs, cid))
  }

  /** Appending a fresh id and then removing it restores the list. */
  lemma AppendThenRemove(xs: seq<string>, cid: string)
    requires cid !in xs
    ensures AppendNew(xs, cid).Ok?
    ensures RemoveListed(AppendNew(xs, cid).value, cid) == Ok(xs)
  {
    RemoveFirstAppended(xs, cid);
  }

  /** Every field but `my_list` and the `updated_at` stamp is the same in both records. */
  ghost predicate OnlyListChanged(rec: Record, rec': Record) {
    forall k :: k != "my_list" && k != "updated_at" ==> (k in rec' <==> k in rec) && (k in rec ==> rec'[k] == rec[k])
  }

  /** Writing the new list back with `update_user(uid, {"my_list": ys})`. */
  function WriteList(db: Db, uid: string, ys: seq<string>, now: string): (r: Db)
    ensures Present(r.users, uid) && ReadList(r.users[uid]) == Some(ys)
    ensures OnlyListChanged(RecordOf(db.users, uid), r.users[uid])
    ensures SameExcept(db.users, r.users, uid) && r.(users := db.users) == db
  {
    UpdateUser(db, uid, map["my_list" := List(ys)], now)
  }

  /** `POST /my-list/{content_id}`: 404 for missing content (before the user
      or the list is read), 400 for an id already listed, otherwise the id is
      appended to the user's list. A missing user makes `user.get` raise (500). */
  function AddToMyList(db: Db, uid: string, cid: string, now: string): (r: Result<Db, Status>)
    ensures !Present(db.content, cid) ==> r == Err(NotFound)
    ensures Present(db.content, cid) && !Present(db.users, uid) ==> r == Err(ServerError)
    ensures Present(db.content, cid) && Present(db.users, uid) && ReadList(db.users[uid]).Some? ==>
              (r.Err? <==> cid in ReadList(db.users[uid]).value) && (r.Err? ==> r.error == BadRequest)
    ensures Present(db.content, cid) && Present(db.users, uid) && ReadList(db.users[uid]).None? ==>
              && r.Err?
              && (r.error == BadRequest <==> Membership(db.users[uid]["my_list"], cid) == Some(true))
              && (r.error != BadRequest ==> r.error == ServerError)
    ensures r.Ok? ==> (Present(db.users, uid) && ReadList(db.users[uid]).Some? && Present(r.value.users, uid) &&
                       ReadList(r.value.users[uid]) == Some(ReadList(db.users[uid]).value + [cid]))
    ensures r.Ok? ==> OnlyListChanged(db.users[uid], r.value.users[uid])
    ensures r.Ok? ==> SameExcept(db.users, r.value.users, uid) && r.value.(users := db.users) == db
  {
    if !Present(db.content, cid) then Err(NotFound)
    else
      match GetUserById(db, uid)
      case None => Err(ServerError)
      case Some(user) =>
        match ReadList(user)
        case Some(xs) =>
          (match AppendNew(xs, cid)
           case Err(e) => Err(e)
           case Ok(ys) => Ok(WriteList(db, uid, ys, now)))
        case None =>
          // `in` answers for an object or a string, then `append` raises
          if Membership(user["my_list"], cid) == Some(true) then Err(BadRequest) else Err(ServerError)
  }

  /** `DELETE /my-list/{content_id}`: 400 for an id not listed, otherwise its
      first occurrence is removed from the user's list. */
  function RemoveFromMyList(db: Db, uid: string, cid: string, now: string): (r: Result<Db, Status>)
    ensures !Present(db.users, uid) ==> r == Err(ServerError)
    ensures Present(db.users, uid) && ReadList(db.users[uid]).Some? ==>
              (r.Err? <==> cid !in ReadList(db.users[uid]).value) && (r.Err? ==> r.error == BadRequest)
    ensures Present(db.users, uid) && ReadList(db.users[uid]).None? ==>
              && r.Err?
              && (r.error == BadRequest <==> Membership(db.users[uid]["my_list"], cid) == Some(false))
              && (r.error != BadRequest ==> r.error == ServerError)
    ensures r.Ok? ==> (Present(db.users, uid) && ReadList(db.users[uid]).Some? && Present(r.value.users, uid) &&
                       cid in ReadList(db.users[uid]).value &&
                       ReadList(r.value.users[uid]) == Some(RemoveFirst(ReadList(db.users[uid]).value, cid)))
    ensures r.Ok? ==> OnlyListChanged(db.users[uid], r.value.users[uid])
    ensures r.Ok? ==> SameExcept(db.users, r.value.users, uid) && r.value.(users := db.users) == db
  {
    match GetUserById(db, uid)
    case None => Err(ServerError)
    case Some(user) =>
      match ReadList(user)
      case Some(xs) =>
        (match RemoveListed(xs, cid)
         case Err(e) => Err(e)
         case Ok(ys) => Ok(WriteList(db, uid, ys, now)))
      case None =>
        // `not in` answers for an object or a string, then `remove` raises
        if Membership(user["my_list"], cid) == Some(false) then Err(BadRequest) else Err(ServerError)
  }

  /** `GET /my-list`: the user's list, a missing one read as []. Anything that
      is not a list fails the response model (500). */
  function GetMyList(db: Db, uid: string): (r: Result<seq<string>, Status>)
    ensures r.Ok? <==> Present(db.users, uid) && ReadList(db.users[uid]).Some?
    ensures r.Ok? ==> r.value == ReadList(db.users[uid]).value
    ensures r.Err? ==> r.error == ServerError
  {
    match GetUserById(db, uid)
    case None => Err(ServerError)
    case Some(user) =>
      match ReadList(user)
      case Some(xs) => Ok(xs)
      case None => Err(ServerError)
  }

  /** Adding a fresh id and then removing it gives the user back the list
      they had, every other field aside from the `updated_at` stamp unchanged. */
  lemma AddThenRemoveRestores(db: Db, uid: string, cid: string, t1: string, t2: string)
    requires Present(db.content, cid) && Present(db.users, uid)
    requires ReadList(db.users[uid]).Some? && cid !in ReadList(db.users[uid]).value
    ensures AddToMyList(db, uid, cid, t1).Ok?
    ensures RemoveFromMyList(AddToMyList(db, uid, cid, t1).value, uid, cid, t2).Ok?
    ensures var db2 := RemoveFromMyList(AddToMyList(db, uid, cid, t1).value, uid, cid, t2).value;
            GetMyList(db2, uid) == GetMyList(db, uid) && OnlyListChanged(db.users[uid], db2.users[uid])
  {
    var xs := ReadList(db.users[uid]).value;
    var db1 := AddToMyList(db, uid, cid, t1).value;
    assert ReadList(db1.users[uid]) == Some(xs + [cid]);
    RemoveFirstAppended(xs, cid);
    var db2 := RemoveFromMyList(db1, uid, cid, t2).value;
    assert ReadList(db2.users[uid]) == Some(xs);
  }

  /** A successful add keeps "no id twice in my_list". */
  lemma AddKeepsListDistinct(db: Db, uid: string, cid: string, now: string)
    requires Present(db.users, uid) && ReadList(db.users[uid]).Some? && Distinct(ReadList(db.users[uid]).value)
    requires AddToMyList(db, uid, cid, now).Ok?
    ensures Distinct(ReadList(AddToMyList(db, uid, cid, now).value.users[uid]).value)
  {
    var xs := ReadList(db.users[uid]).value;
    assert AppendNew(xs, cid) == Ok(xs + [cid]);
  }
}

=== FILE: python.dfy ===
/** The behaviour of the Python built-ins the source relies on. */
module Python {

  predicate IsUpper(c: char) {
    'A' <= c <= 'Z'
  }

  function LowerChar(c: char): (d: char)
    ensures !IsUpper(d)
    ensures IsUpper(c) ==> d as int == c as int + 32
    ensures !IsUpper(c) ==> d == c
  {
    if IsUpper(c) then (c as int + 32) as char else c
  }

  /** `str.lower()` on the ASCII letters. */
  function Lower(s: string): (r: string)
    ensures |r| == |s|
    ensures forall i :: 0 <= i < |r| ==> !IsUpper(r[i])
    ensures forall i :: 0 <= i < |r| ==> r[i] == s[i] || (IsUpper(s[i]) && r[i] as int == s[i] as int + 32)
    ensures (forall i :: 0 <= i < |s| ==> !IsUpper(s[i])) ==> r == s
  {
    seq(|s|, i requires 0 <= i < |s| => LowerChar(s[i]))
  }

  /** Python's treatment of a slice bound against a sequence of length `n`:
      a negative bound counts from the end, and the result is clamped to [0, n]. */
  function Bound(i: int, n: nat): (b: nat)
    ensures b <= n
    ensures 0 <= i <= n ==> b == i
    ensures i < 0 && 0 <= i + n ==> b == i + n
  {
    if i < 0 then (if i + n < 0 then 0 else i + n)
    else if i > n then n
    else i
  }

  /** `s[i:j]` with Python's slice semantics. */
  function Slice<T>(s: seq<T>, i: int, j: int): (r: seq<T>)
    ensures |r| <= |s|
    ensures 0 <= i <= j <= |s| ==> r == s[i..j]
    ensures i <= j ==> |r| <= j - i
    ensures 0 <= j <= i ==> r == []
    ensures forall x :: x in r ==> x in s
  {
    var a := Bound(i, |s|);
    var b := Bound(j, |s|);
    if a < b then
      assert forall x :: x in s[a..b] ==> x in s;
      s[a..b]
    else []
  }

  /** For non-negative bounds a Python slice is the clamped mathematical slice. */
  lemma SliceNonNegative<T>(s: seq<T>, i: int, j: int)
    requires 0 <= i && 0 <= j
    ensures Slice(s, i, j) == (if i < |s| && i < j then s[i..if j <= |s| then j else |s|] else [])
  {
  }

  /** Two adjacent non-negative windows, of lengths `a` and `b`, concatenate
      to the window of length `t == a + b` starting at the same place. */
  lemma SliceSplit<T>(s: seq<T>, i: int, a: int, b: int, t: int)
    requires 0 <= i && 0 <= a && 0 <= b && t == a + b
    ensures Slice(s, i, i + a) + Slice(s, i + a, i + a + b) == Slice(s, i, i + t)
  {
    if i + a < |s| {
      SliceSplitInside(s, i, a, b, t);
    } else {
      SliceNonNegative(s, i, i + a);
      SliceNonNegative(s, i + a, i + a + b);
      SliceNonNegative(s, i, i + t);
    }
  }

  /** The case of `SliceSplit` where the first window ends inside the list. */
  lemma SliceSplitInside<T>(s: seq<T>, i: int, a: int, b: int, t: int)
    requires 0 <= i && 0 <= a && 0 <= b && t == a + b && i + a < |s|
    ensures Slice(s, i, i + a) + Slice(s, i + a, i + a + b) == Slice(s, i, i + t)
  {
    var e := if i + t <= |s| then i + t else |s|;
    SliceNonNegative(s, i + a, i + a + b);
    SliceNonNegative(s, i, i + t);
    assert Slice(s, i, i + a) == s[i..i + a];
    assert s[i..i + a] + s[i + a..e] == s[i..e];
  }

  /** The position of the first occurrence of `k`, as `list.index` finds it. */
  function FirstIndex(s: seq<string>, k: string): (i: nat)
    requires k in s
    ensures i < |s| && s[i] == k && k !in s[..i]
  {
    if s[0] == k then 0
    else
      var j := FirstIndex(s[1..], k);
      assert s[1..][..j] == s[1..j + 1];
      1 + j
  }

  /** `list.remove(k)`: drops exactly the first occurrence, keeping the order of the rest. */
  function RemoveFirst(s: seq<string>, k: string): (r: seq<string>)
    requires k in s
    ensures |r| == |s| - 1
    ensures var i := FirstIndex(s, k); r == s[..i] + s[i + 1..]
  {
    if s[0] == k then s[1..]
    else
      var j := FirstIndex(s[1..], k);
      assert FirstIndex(s, k) == j + 1;
      DropAfterHead(s, j);
      [s[0]] + RemoveFirst(s[1..], k)
  }

  /** Dropping position `j` of the tail and putting the head back drops position `j + 1`. */
  lemma DropAfterHead(s: seq<string>, j: nat)
    requires j + 1 < |s|
    ensures [s[0]] + (s[1..][..j] + s[1..][j + 1..]) == s[..j + 1] + s[j + 2..]
  {
    assert s[1..][..j] == s[1..j + 1] && s[1..][j + 1..] == s[j + 2..];
    assert [s[0]] + s[1..j + 1] == s[..j + 1];
  }

  /** Appending a fresh element and then removing it gives back the list. */
  lemma {:induction false} RemoveFirstAppended(s: seq<string>, k: string)
    requires k !in s
    ensures RemoveFirst(s + [k], k) == s
  {
    assert (s + [k])[..|s|] == s;
  }

  /** `a in b` for two strings: `a` occurs as a contiguous piece of `b`. */
  predicate Contains(b: string, a: string) {
    exists i :: 0 <= i <= |b| - |a| && OccursAt(b, a, i)
  }

  predicate OccursAt(b: string, a: string, i: int) {
    0 <= i <= |b| - |a| && b[i..i + |a|] == a
  }
}

=== FILE: values.dfy ===
/** The values the realtime database stores under a record's fields. */
module Values {

  /** A field value: a string, a list of strings (`genre`, the route-level
      `my_list`), a node whose children are all `true` (the store-level
      `my_list`, kept as its ordered keys), Python's `None`, or any other
      scalar, of which only its Python truthiness matters here. */
  datatype Value =
    | Str(s: string)
    | List(items: seq<string>)
    | Flags(keys: seq<string>)
    | Null
    | Other(truthy: bool)

  /** A record: the children of one `users/<id>` or `content/<id>` node. */
  type Record = map<string, Value>

  /** Python truthiness of a value read back from the database. */
  predicate Truthy(v: Value) {
    match v
    case Str(s) => s != ""
    case List(xs) => xs != []
    case Flags(ks) => ks != []
    case Null => false
    case Other(t) => t
  }

  /** The database keeps no `None`, empty list or empty object: writing one deletes the child. */
  predicate IsNull(v: Value) {
    v.Null? || (v.List? && v.items == []) || (v.Flags? && v.keys == [])
  }

  /** What a `set(rec)` leaves stored: the fields whose value is not null. */
  function Stored(rec: Record): (r: Record)
    ensures forall k :: k in r <==> k in rec && !IsNull(rec[k])
    ensures forall k :: k in r ==> r[k] == rec[k]
  {
    map k | k in rec && !IsNull(rec[k]) :: rec[k]
  }

  /** `ref.update(upd)` applied to the stored record `prev`: each key of `upd`
      is overwritten (or deleted when its value is null), every other key keeps
      its value. */
  function Merge(prev: Record, upd: Record): (r: Record)
    ensures forall k :: k in upd && !IsNull(upd[k]) ==> k in r && r[k] == upd[k]
    ensures forall k :: k in upd && IsNull(upd[k]) ==> k !in r
    ensures forall k :: k !in upd ==> (k in r <==> k in prev)
    ensures forall k :: k !in upd && k in prev ==> r[k] == prev[k]
  {
    map k | k in prev.Keys + upd.Keys && !(k in upd && IsNull(upd[k])) ::
      if k in upd then upd[k] else prev[k]
  }

  /** A record the database holds as a node: Python reads an empty one as falsy. */
  predicate Present(m: map<string, Record>, id: string) {
    id in m && m[id] != map[]
  }
}
